=== FILE: README.md ===
# meme_bot: a Dafny model of the meme fetcher and the Telegram bot's handlers

The system hands out memes to Telegram users and chats, and never sends the
same meme twice to the same identity. A fetcher (`meme_fetcher_4.py`) keeps
three append-only tables in PostgreSQL:

- `memes_all_urls`: one row per meme;
- `memes_queries_journal`: one row per delivery;
- `memes_key_words_using`: the keywords and language a delivery was asked with.

On every request the fetcher reads the identity's blacklist (the urls already
delivered to it). It first tries the newest cached meme that was never
delivered there and that matches the keywords and language. Otherwise it asks
external providers:

- English: a Reddit search, with meme-api as the fallback;
- Russian: Reddit, then Giphy, then Pikabu.

The fetch retries at most 20 times until a pick is not blacklisted. It then
records the delivery and downloads the image. The bot (`meme_bot.py`) wraps
this in a per-(user, chat) action lock table and two registration lists, and
drives it from five handlers.

Modules, one per file:

- `common.dfy` (`Common`): `Option`, `Result`, the error kinds and Python truthiness of an optional string.
- `providers.dfy` (`Providers`): `is_cyrillic` and the loops that turn each provider's answer into candidates.
- `aggregator.dfy` (`Aggregator`): `pick_english_meme`, `pick_russian_meme` and the bounded retry of `fetch_external_unique`.
- `store.dfy` (`Store`): the three tables as values, the queries, and the `Db` class whose methods append rows.
- `download.dfy` (`Download`): the file-name rule of `download`.
- `engine.dfy` (`Engine`): the fetcher's `main`.
- `bot.dfy` (`Bot`): `BotDB`'s lock and registration helpers, and `send_meme`'s call into the fetcher.
- `handlers.dfy` (`Handlers`): `cmd_start`, `get_meme`, `get_any_meme`, `cb_query` and `txt_handler`.

Everything the code learns from outside is an input of the model:

- Network answers and random draws: a `Round` value per attempt. Its fields are one function per provider and the two random indices.
- Whether the download succeeds: a boolean.
- The clock: a number.

`Engine.World` gathers these for one call of `main`, and `Engine.Request`
holds its four arguments. The specification functions `Engine.Outcome` and
`Engine.After` say what one call returns and which tables it leaves behind.
`Engine.Run`, `Bot.SendMeme` and the handlers are proved to match them, and
the lemmas beside them state what the fetcher promises.

A provider answer of `None` stands for a failed request. SQL `NULL` is
`Option.None`. An `=` comparison with `NULL` is never true (`Store.SqlEq`).

## Model

| member | source | states |
|---|---|---|
| Providers.IsCyrillic | meme_bot/meme_fetcher_4.py:43-46 | true exactly when some character of the text is in [а-яА-ЯёЁ] |
| Providers.RedditFilter | meme_bot/meme_fetcher_4.py:62-72 | no longer than the post list; every candidate comes from a kept post (image hint, language rule), and every kept post yields a candidate |
| Providers.FilterLanguageRules | meme_bot/meme_fetcher_4.py:64-67 | every output comes from an image post; an "eng" search never yields a Cyrillic title; a "rus" search yields only Cyrillic titles or sources r/<one of RUS_SUBS> |
| Providers.RedditSearch | meme_bot/meme_fetcher_4.py:56-72 | the loop returns exactly the filter of the response's posts; a failed request gives []; the subreddit list takes no part |
| Providers.GiphyCandidates | meme_bot/meme_fetcher_4.py:81-85 | one candidate per GIF, in order, sourced "giphy/<id>", titled by the query when the GIF has no title, so never untitled for a non-empty query |
| Providers.GiphyRuSearch | meme_bot/meme_fetcher_4.py:74-86 | a missing key or an ApiException gives []; any other error escapes as an error, and only then; otherwise the loop returns exactly the GIF candidates |
| Providers.PikabuCandidates | meme_bot/meme_fetcher_4.py:95-100 | exactly the posts with a preview become candidates, each with a non-empty url |
| Providers.PikabuRu | meme_bot/meme_fetcher_4.py:88-101 | a failed request gives []; otherwise the loop returns exactly the candidates of the posts with a preview |
| Aggregator.ShuffledHead | meme_bot/meme_fetcher_4.py:105-106 | the first element after a shuffle is one of the candidates |
| Aggregator.MemeApiRandom | meme_bot/meme_fetcher_4.py:52-54 | a failed request is the MemeApiFailed error; otherwise the meme comes from one of ENG_SUBS and is sourced "meme-api/<sub>" |
| Aggregator.PickEnglish | meme_bot/meme_fetcher_4.py:103-108 | with truthy keywords and a non-empty search, the pick is a search candidate without a Cyrillic title; in every other case it is meme_api_random's answer |
| Aggregator.PickEnglishIgnoresSearchWithoutKey | meme_bot/meme_fetcher_4.py:103-108 | without keywords the Reddit answer makes no difference and the meme comes from meme-api |
| Aggregator.RusGiphy | meme_bot/meme_fetcher_4.py:113 | the Giphy step fails exactly when the Giphy client raises something other than ApiException, and then with GiphyFailed |
| Aggregator.PickRussian | meme_bot/meme_fetcher_4.py:110-117 | Reddit, then Giphy (both with `key or "мем"`), then Pikabu (with the raw key): the first non-empty list supplies the pick; an escaping Giphy error ends the pick before Pikabu is asked; NoRuMemeFound exactly when all three are empty |
| Aggregator.PikabuOnlyAsLastResort | meme_bot/meme_fetcher_4.py:110-116 | while Reddit or Giphy has a candidate, Pikabu's answer makes no difference |
| Aggregator.Pick | meme_bot/meme_fetcher_4.py:122 | lang "rus" gives the Russian chain's answer and every other lang, None and "eng" included, the English chain's; a pick fails only with MemeApiFailed, GiphyFailed or NoRuMemeFound |
| Aggregator.FetchFoundIsFresh | meme_bot/meme_fetcher_4.py:119-124 | a meme the fetch returns is not blacklisted and is the pick of some attempt below 20, every earlier attempt having produced a blacklisted meme |
| Aggregator.FetchExhaustedIff | meme_bot/meme_fetcher_4.py:119-124 | the fetch gives up if and only if every remaining attempt produced a meme and each was blacklisted |
| Aggregator.PicksNeverExhaust | meme_bot/meme_fetcher_4.py:121 | no single pick reports the exhausted-fetch error, so the previous lemma applies to the fetcher's picks |
| Aggregator.FetchGivesUpIff | meme_bot/meme_fetcher_4.py:119-124 | from the first attempt: the fetch gives up if and only if each of the 20 picks produced a meme and every one was blacklisted |
| Aggregator.FetchExternalUnique | meme_bot/meme_fetcher_4.py:119-124 | the loop computes the retry specification; it makes 1 to 20 picks; a returned meme is not blacklisted and is the pick of the last attempt made; giving up takes all 20 picks |
| Store.Blacklist | meme_bot/meme_fetcher_4.py:135-141 | a NULL identity has an empty blacklist, since `=` with NULL is never true; every blacklisted url is an asset's url |
| Store.NewestQualifying | meme_bot/meme_fetcher_4.py:146-175 | the result is a qualifying asset of the list, and no qualifying asset is newer |
| Store.FindCachedUrl | meme_bot/meme_fetcher_4.py:143-175 | the asset was never delivered to the identity; it has a matching keyword row when keywords or a language are truthy; None exactly when nothing qualifies; no qualifying asset is newer |
| Store.GetUrlId | meme_bot/meme_fetcher_4.py:177-180 | None exactly when no asset has the url; otherwise the ID of an asset with that url |
| Store.GetUrlIdOfExisting | meme_bot/meme_fetcher_4.py:177-180 | with one asset per url, an existing url resolves to its own asset's ID |
| Store.GetUrlIdAsWritten | meme_bot/meme_fetcher_4.py:177-180 | as written: the lookup fails exactly when some asset has the url, and otherwise returns None |
| Store.AsWrittenLookupFailsOnKnownUrl | meme_bot/meme_fetcher_4.py:177-180 | as written, looking up a url already in the table fails, where the intended lookup returns its asset's ID |
| Store.NotJournaledNotBlacklisted | meme_bot/meme_fetcher_4.py:135-151 | an asset that find_cached_url may return (no delivery to the identity) is not in the identity's blacklist |
| Store.BlacklistGrows | meme_bot/meme_fetcher_4.py:135-141 | tables that keep every asset and journal row of the old ones have a blacklist at least as large, for every identity |
| Store.JournalRowFoundAgain | meme_bot/meme_fetcher_4.py:132-133 | the row add_journal writes is found by the same identity's queries if and only if the identity is not NULL (or the asset was already journaled) |
| Store.JournaledIsBlacklisted | meme_bot/meme_fetcher_4.py:135-141 | the journal row of a non-NULL identity puts the asset's url in that identity's blacklist |
| Store.KeywordRowFoundAgain | meme_bot/meme_fetcher_4.py:197-205 | the keyword row add_keyword_usage writes matches find_cached_url's keyword sub-query for the same keywords and language; a stored keyword is always truthy |
| Store.Db.InsertUrl | meme_bot/meme_fetcher_4.py:182-188 | appends one asset with a fresh ID that no existing asset has, and advances the sequence; the other tables are unchanged |
| Store.Db.AddJournal | meme_bot/meme_fetcher_4.py:190-195 | appends one journal row with the value in the identity's column and the other column NULL |
| Store.Db.AddKeywordUsage | meme_bot/meme_fetcher_4.py:197-205 | appends one keyword row for the identity's column |
| Download.UrlPath | meme_bot/meme_fetcher_4.py:221 | urlparse(url).path is a contiguous piece of the url that holds no '?' or '#' |
| Download.UrlPathOfHttpUrl | meme_bot/meme_fetcher_4.py:221 | for "https://" + host + path, with a host free of '/', '?' and '#' and a path that is empty or starts with '/' and has no query or fragment, urlparse's path is exactly that path |
| Download.PathName | meme_bot/meme_fetcher_4.py:221 | the name is a whole segment of the path, neither empty nor "." and without '/', after which only '/' and single "." segments follow (so never before a ".."); "" only for a path of slashes and single dots |
| Download.Decimal | meme_bot/meme_fetcher_4.py:221 | str(n): non-empty decimal digits whose value is n, with a leading zero only for 0 |
| Download.FallbackName | meme_bot/meme_fetcher_4.py:221 | "meme_<timestamp>.jpg" is never empty and contains no '/' |
| Download.FileName | meme_bot/meme_fetcher_4.py:220-222 | never empty and never containing '/'; the path's last name when there is one, otherwise "meme_<timestamp>.jpg" |
| Engine.FieldOf | meme_bot/meme_fetcher_4.py:239 | the queries select the user column exactly when a user is given |
| Engine.ValueOf | meme_bot/meme_fetcher_4.py:240 | the identity value is NULL only when neither a user nor a chat is given |
| Engine.IdentityRow | meme_bot/meme_fetcher_4.py:239-240 | the journal row of a delivery holds the user in USER_ID when one is given, else the chat in CHAT_ID, and NULL in the other column |
| Engine.RecordedConsistent | meme_bot/meme_fetcher_4.py:268-270 | appending the delivery rows of an existing asset keeps the tables consistent |
| Engine.WithAssetConsistent | meme_bot/meme_fetcher_4.py:265-267 | the asset row of a fetched meme keeps urls and IDs unique and below the sequence, and an asset with the journaled ID and the meme's url exists |
| Engine.AfterConsistent | meme_bot/meme_fetcher_4.py:236-275 | one call of main keeps the tables consistent and the IDs below the sequence, which never goes back |
| Engine.BlacklistNeverShrinks | meme_bot/meme_fetcher_4.py:250-271 | after one call of main no identity's blacklist has lost a url, whatever the outcome |
| Engine.DeliveredIsFresh | meme_bot/meme_fetcher_4.py:250-271 | a delivered meme was not in the identity's blacklist and, for a non-NULL identity, now is; its asset row exists; it is saved under the download's file name; exactly one journal row and, when keywords or a language are truthy, one keyword row were appended |
| Engine.WritesOnlyForACandidate | meme_bot/meme_fetcher_4.py:253-271 | a failure other than the download leaves the tables and the ID sequence unchanged; a cache hit with a failed download writes nothing; on a miss the writes do not depend on the download |
| Engine.CacheHitAsksNoProvider | meme_bot/meme_fetcher_4.py:253-261 | on a cache hit the providers' answers change neither the result nor the tables |
| Engine.RequestTwiceNeverRepeats | meme_bot/meme_fetcher_4.py:236-271 | two successive successful calls for the same identity, with any keywords, languages, provider answers and download results, deliver different urls |
| Engine.RecordDelivery | meme_bot/meme_fetcher_4.py:268-270 | the tables become the old ones plus one journal row and, when keywords or a language are truthy, one keyword row; they stay consistent |
| Engine.ResolveAsset | meme_bot/meme_fetcher_4.py:265-267 | a known url keeps its asset and the sequence; an unknown one gets a new asset row with the next ID; the returned ID is the one main journals |
| Engine.Run | meme_bot/meme_fetcher_4.py:236-275 | the result and the new tables are those of the specification (cache hit: download, then journal and keyword rows; miss: bounded fetch, idempotent insert, rows, then download); a delivered meme was not in the identity's blacklist; the identity's blacklist never shrinks; the tables stay consistent |
| Engine.RequestTwice | meme_bot/meme_fetcher_4.py:236-275 | two calls of main in a row for the same identity, each with its own keywords, language, provider answers and download result, never deliver the same url, and the identity's blacklist only grows |
| Bot.OtherLang | meme_bot/meme_bot.py:219 | `1 if lang == 2 else 2` differs from its argument and is always English or Russian |
| Bot.OtherLangTwice | meme_bot/meme_bot.py:219 | toggling twice gives back English or Russian |
| Bot.ChatScopeSeparates | meme_bot/meme_bot.py:214 | a private chat and a group chat give different lock rows and blacklists (user column versus chat column); members of one group share the chat's blacklist but each has a lock row |
| Bot.FirstLang | meme_bot/meme_bot.py:144-153 | None exactly when no row has the id; otherwise the language of the first row with that id |
| Bot.FirstLangAppend | meme_bot/meme_bot.py:163-172 | a later registration row never changes an existing registration's language; the first one for an id sets it |
| Bot.SendMemeIdentity | meme_bot/meme_bot.py:185-188 | exactly one of user and chat is passed, so a private chat uses the user's blacklist and a group uses the chat's |
| Bot.SendMemeDeliversFresh | meme_bot/meme_bot.py:175-188 | a meme send_meme delivers was not in the identity's blacklist and now is, and its one keyword row carries the keywords and "rus" or "eng" |
| Bot.BotDb.LockExists | meme_bot/meme_bot.py:121-124 | a lock exists exactly when the pair has a row with a code above 0 |
| Bot.BotDb.SetAction | meme_bot/meme_bot.py:130-137 | upsert: the pair's code becomes the given one and nothing else changes |
| Bot.BotDb.ClearLock | meme_bot/meme_bot.py:138-142 | the pair's row is gone, so no lock exists |
| Bot.BotDb.Lang | meme_bot/meme_bot.py:144-153 | in a group chat the chat's registered language; otherwise the user's; English for an unregistered user |
| Bot.BotDb.IsRegistered | meme_bot/meme_bot.py:155-162 | the chat list in a group chat, the user list in a private chat, has a row for the identity |
| Bot.BotDb.Register | meme_bot/meme_bot.py:163-172 | one row appended to the list is_registered reads; afterwards the identity is registered, and a first registration sets its language |
| Bot.SendMeme | meme_bot/meme_bot.py:175-188 | the result, the new meme tables and the new ID sequence are those of one call of main for the chat scope's identity and "rus" or "eng"; the blacklist never shrinks; a delivered meme was fresh and is now blacklisted, with its keyword row; no failure but the download writes anything |
| Handlers.FirstNonSpace | meme_bot/meme_bot.py:358 | the first index from which the text is not whitespace; everything skipped is whitespace |
| Handlers.EndOfText | meme_bot/meme_bot.py:358 | the end of the text once trailing whitespace is dropped; everything dropped is whitespace |
| Handlers.Strip | meme_bot/meme_bot.py:358 | str.strip(): a slice of the text with only whitespace outside it and no whitespace at its ends |
| Handlers.Deliver | meme_bot/meme_bot.py:266-267 | the meme tables and the ID sequence are those of one call of main; the answer reports its result; after a delivery the code is 0, and when the fetcher fails the lock stays as it was; a delivered meme was fresh and is now blacklisted |
| Handlers.CmdStart | meme_bot/meme_bot.py:212-225 | busy while a lock exists; otherwise the code becomes 1; the session language is the stored one and the meme language the other one |
| Handlers.GetMeme | meme_bot/meme_bot.py:227-247 | an unregistered identity gets code 0; a registered one is busy while a lock exists, and otherwise moves to code 2; the session languages are set as in cmd_start |
| Handlers.GetAnyMeme | meme_bot/meme_bot.py:249-268 | the same guards as get_meme, which leave the meme tables and the ID sequence alone; then the delivery step runs with the stored language toggled twice and no keywords; the session language is the stored one and the meme language the other one; a delivered meme was fresh for the identity |
| Handlers.SessionLang | meme_bot/meme_bot.py:276 | the session's language when set, else the stored one, which is English for an identity registered nowhere |
| Handlers.SessionLangMeme | meme_bot/meme_bot.py:277-280 | the session's meme language when set, else a language other than `lang`, English or Russian |
| Handlers.KeywordAndAnyMemeSameLanguage | meme_bot/meme_bot.py:353-357 | a keyword search is fetched with the same "eng"/"rus" argument that cb_query's AnyMeme passes (line 325), whatever the session holds |
| Handlers.CbQuery | meme_bot/meme_bot.py:270-345 | every button is refused while no lock exists; language toggles; CANCEL deletes the lock; REGISTER registers at most once; GET MEME moves a registered identity to 2; AnyMeme and ByKeyWords act only on code 2, AnyMeme running the delivery step with the meme language toggled; REGISTER appends one row to the chat list in a group, or to the user list in a private chat, and keeps every other registration; only AnyMeme touches the meme tables or the ID sequence; only the language button changes the session language and only the meme-language button the session meme language |
| Handlers.TxtHandler | meme_bot/meme_bot.py:347-362 | ignored unless the code is 3, leaving the meme tables and the ID sequence alone; then the delivery step runs with the stripped text as keywords; the session is never written |

## Write order in main

- On a cache miss, main writes the asset, journal and keyword rows before it downloads (meme_fetcher_4.py:265-271).
- A failed download therefore still leaves those rows, and the meme counts as delivered.
- On a cache hit, the download comes first (meme_fetcher_4.py:254-259).

## Other notes

- Providers.RedditSearch ignores its subreddit list, as the code does. The Reddit search covers the whole site.

## Findings

| source | as written | input that shows it | evidently intended | confidence | as-written member | corrected member |
|---|---|---|---|---|---|---|
| meme_bot/meme_fetcher_4.py:177-180 | get_url_id selects the column `"ID"` but reads the attribute `id` of the row it found, so a found url raises instead of returning its ID (find_cached_url reads `row.ID`, line 174) | a fetched url that already has a row in memes_all_urls, e.g. one delivered earlier to another identity and so not in this identity's blacklist | return the row's ID, so main reuses the existing asset and journals it | medium; not executed; rests on the database driver naming row attributes after the columns, case-sensitively | Store.GetUrlIdAsWritten, Store.AsWrittenLookupFailsOnKnownUrl | Store.GetUrlId, Store.GetUrlIdOfExisting |

The rest of the model (Engine.ResolveAsset, Engine.Run) uses the corrected lookup.

## Left out

- Network I/O is not modelled: the HTTP requests, the Giphy client and the JSON decoding. Each provider's decoded answer is an input.
- Pikabu's `story_id`/`id` choice and its `stories`/`posts` choice are JSON decoding. A post arrives with its preview, title and id already chosen.
- Writing the downloaded bytes is not modelled: the model keeps only the success flag and the file name.
- `_fetch_sync`'s newest-file lookup and `send_meme`'s 500-file cache sweep are left out. They are file-system state outside the tables.
- Sending messages and photos to Telegram is left out, as are the `text_*` and `kb_*` helpers. A handler's answer is reduced to an `Outcome`.
- `make_dsn`, the SSH tunnel, `parse_args`, `Db.close` and `BotDB.close_all` are left out. They are connection set-up, with no logic over the tables.
- Concurrency is left out: handlers run one at a time and each table write takes effect at once. The lock table's `date_time_action` timestamp is not kept.
- Download.UrlPath: does not model `urlparse`'s `;params` split or the stripping of unsafe characters from the URL.
- Store.FindCachedUrl: states only that no qualifying asset is newer. The SQL leaves the order among equal `date_upload` values unspecified; the model happens to take the later row.
- Store.Db.InsertUrl: the database's `ID` sequence and `date_upload` default are a counter and a clock input.
- Bot.BotDb.Lang: `fetchone()` without `ORDER BY` may return any matching row. The model takes the first registration row, so a duplicate registration never changes the language.
- Bot.ChatScopeSeparates: assumes a group chat's id is not 0, as Telegram group ids never are; a group with id 0 would share the private chat's lock rows.
- Providers.GiphyRuSearch: which exceptions the Giphy client raises is outside the model; an answer says only whether it was an ApiException (no GIFs) or another error (escapes).
- Engine.Run: with neither user nor chat given, the identity value is NULL. The journal row then matches nothing, so the blacklist promise is stated only for a non-NULL identity.
- Handlers.TxtHandler: a message without text (`update.message.text` is None) is not modelled; the text is always a string.
- Handlers.CbQuery: `q.answer()` and the edit calls are not modelled; nor are exceptions other than the fetcher failing.

=== FILE: aggregator.dfy ===
/** Source selection: which provider is asked, in which order, and the
    bounded retry that rejects blacklisted memes. Network answers and
    random draws are given to the model as a `Round` per attempt. */
module Aggregator {
  import opened Common
  import opened Providers

  /** The fields meme_api_random reads from the meme API's answer. */
  datatype ApiMeme = ApiMeme(url: string, title: string)

  /** Everything one pick can observe: each provider's answer to the query
      it is given, and the two random draws. */
  datatype Round = Round(
    reddit: string -> Option<seq<Post>>,   // None: the request or its body failed
    giphy: string -> GiphyAnswer,
    pikabu: Option<string> -> Option<seq<PikabuPost>>,  // None: the request failed
    memeApi: string -> Option<ApiMeme>,    // None: the request raises
    shuffle: nat,                          // which element random.shuffle puts first
    sub: nat)                              // which subreddit random.choice draws

  const ATTEMPTS: nat := 20
  const RU_DEFAULT_QUERY: string := "мем"

  /** random.shuffle(cand); cand[0] */
  function ShuffledHead(cand: seq<Candidate>, shuffle: nat): (c: Candidate)
    requires cand != []
    ensures c in cand
  {
    cand[shuffle % |cand|]
  }

  /** meme_api_random(random.choice(ENG_SUBS)) */
  function MemeApiRandom(r: Round): (res: Result<Candidate, Error>)
    ensures res.Err? ==> res.error == MemeApiFailed
    ensures res.Ok? ==> exists s :: (s in ENG_SUBS && res.value.source == "meme-api/" + s
      && r.memeApi(s) == Some(ApiMeme(res.value.url, res.value.title)))
  {
    var sub := ENG_SUBS[r.sub % |ENG_SUBS|];
    match r.memeApi(sub)
    case None => Err(MemeApiFailed)
    case Some(m) => Ok(Candidate(m.url, m.title, "meme-api/" + sub))
  }

  /** The English search candidates: reddit_search(key, ENG_SUBS, "eng"). */
  function EngSearch(key: string, r: Round): seq<Candidate> {
    RedditFilter(PostsOrNone(r.reddit(key)), "eng")
  }

  /** pick_english_meme */
  function PickEnglish(key: Option<string>, r: Round): (res: Result<Candidate, Error>)
    ensures Truthy(key) && EngSearch(key.value, r) != [] ==>
      res.Ok? && res.value in EngSearch(key.value, r) && !IsCyrillic(res.value.title)
    ensures !(Truthy(key) && EngSearch(key.value, r) != []) ==> res == MemeApiRandom(r)
    ensures res.Err? ==> res.error == MemeApiFailed
  {
    if Truthy(key) then
      var cand := EngSearch(key.value, r);
      if cand != [] then
        var c := ShuffledHead(cand, r.shuffle);
        FilterLanguageRules(PostsOrNone(r.reddit(key.value)), "eng", c);
        Ok(c)
      else MemeApiRandom(r)
    else MemeApiRandom(r)
  }

  /** Without keywords the search provider is never consulted. */
  lemma PickEnglishIgnoresSearchWithoutKey(key: Option<string>, r: Round, other: string -> Option<seq<Post>>)
    requires !Truthy(key)
    ensures PickEnglish(key, r) == PickEnglish(key, r.(reddit := other))
    ensures PickEnglish(key, r).Ok? ==> exists s :: s in ENG_SUBS && PickEnglish(key, r).value.source == "meme-api/" + s
  {
  }

  /** `key or "мем"` */
  function RusQuery(key: Option<string>): string {
    if Truthy(key) then key.value else RU_DEFAULT_QUERY
  }

  /** The Russian search candidates: reddit_search(key or "мем", RUS_SUBS, "rus"). */
  function RusSearch(key: Option<string>, r: Round): seq<Candidate> {
    RedditFilter(PostsOrNone(r.reddit(RusQuery(key))), "rus")
  }

  /** giphy_ru_search(key or "мем"): the candidates, or the error that escapes it. */
  function RusGiphy(key: Option<string>, r: Round): (res: Result<seq<Candidate>, Error>)
    ensures res.Err? <==> r.giphy(RusQuery(key)).GiphyRaised?
    ensures res.Err? ==> res.error == GiphyFailed
  {
    match r.giphy(RusQuery(key))
    case GiphyRaised => Err(GiphyFailed)
    case GiphyUnavailable => Ok([])
    case GiphyGifs(gifs) => Ok(GiphyCandidates(RusQuery(key), gifs))
  }

  /** pikabu_ru(key): the key as given, not the default query. */
  function RusPikabu(key: Option<string>, r: Round): seq<Candidate> {
    PikabuCandidates(PostsOrNone(r.pikabu(key)))
  }

  /** pick_russian_meme: the first non-empty of Reddit, Giphy (both with the
      default query) and Pikabu (with the key as given); an error escaping
      the Giphy search ends the chain before Pikabu is asked. */
  function PickRussian(key: Option<string>, r: Round): (res: Result<Candidate, Error>)
    ensures RusSearch(key, r) != [] ==> res.Ok? && res.value in RusSearch(key, r)
    ensures RusSearch(key, r) == [] && RusGiphy(key, r).Err? ==> res == Err(GiphyFailed)
    ensures RusSearch(key, r) == [] && RusGiphy(key, r).Ok? && RusGiphy(key, r).value != [] ==>
      res.Ok? && res.value in RusGiphy(key, r).value
    ensures RusSearch(key, r) == [] && RusGiphy(key, r) == Ok([]) && RusPikabu(key, r) != [] ==>
      res.Ok? && res.value in RusPikabu(key, r)
    ensures res == Err(NoRuMemeFound) <==>
      RusSearch(key, r) == [] && RusGiphy(key, r) == Ok([]) && RusPikabu(key, r) == []
    ensures res.Err? ==> res.error in {GiphyFailed, NoRuMemeFound}
  {
    var c1 := RusSearch(key, r);
    if c1 != [] then Ok(ShuffledHead(c1, r.shuffle))
    else
      match RusGiphy(key, r)
      case Err(e) => Err(e)
      case Ok(c2) =>
        if c2 != [] then Ok(ShuffledHead(c2, r.shuffle))
        else
          var c3 := RusPikabu(key, r);
          if c3 != [] then Ok(ShuffledHead(c3, r.shuffle))
          else Err(NoRuMemeFound)
  }

  /** Pikabu is the last resort: while Reddit has a candidate, or Giphy has
      one or fails, its answer makes no difference. */
  lemma PikabuOnlyAsLastResort(key: Option<string>, r: Round, other: Option<string> -> Option<seq<PikabuPost>>)
    requires RusSearch(key, r) != [] || RusGiphy(key, r) != Ok([])
    ensures PickRussian(key, r) == PickRussian(key, r.(pikabu := other))
  {
  }

  /** One attempt of fetch_external_unique: `lang == "rus"` selects the
      Russian chain, anything else (None included) the English one. */
  function Pick(key: Option<string>, lang: Option<string>, r: Round): (res: Result<Candidate, Error>)
    ensures lang == Some("rus") ==> res == PickRussian(key, r)
    ensures lang != Some("rus") ==> res == PickEnglish(key, r)
    ensures res.Err? ==> res.error in {MemeApiFailed, GiphyFailed, NoRuMemeFound}
  {
    if lang == Some("rus") then PickRussian(key, r) else PickEnglish(key, r)
  }

  /** The pick outcome of every attempt, in order. */
  function Attempts(key: Option<string>, lang: Option<string>, rounds: nat -> Round): nat -> Result<Candidate, Error> {
    (k: nat) => Pick(key, lang, rounds(k))
  }

  /** The outcome of fetch_external_unique from attempt `i` on, given the
      pick outcome of each attempt: the first pick that fails or is not
      blacklisted decides; after attempt 19 the fetch gives up. */
  function FetchFrom(blacklist: set<string>, outcome: nat -> Result<Candidate, Error>, i: nat): Result<Candidate, Error>
    decreases ATTEMPTS - i
  {
    if i >= ATTEMPTS then Err(FetchNotUnique)
    else
      match outcome(i)
      case Err(e) => Err(e)
      case Ok(m) =>
        if m.url !in blacklist then Ok(m)
        else FetchFrom(blacklist, outcome, i + 1)
  }

  /** A meme the fetch returns is not blacklisted and is the pick of one of
      the attempts, every earlier one of which was blacklisted. */
  lemma {:induction false} FetchFoundIsFresh(blacklist: set<string>, outcome: nat -> Result<Candidate, Error>, i: nat)
    requires FetchFrom(blacklist, outcome, i).Ok?
    ensures FetchFrom(blacklist, outcome, i).value.url !in blacklist
    ensures exists k :: (i <= k < ATTEMPTS && outcome(k) == FetchFrom(blacklist, outcome, i)
      && forall j :: i <= j < k ==> outcome(j).Ok? && outcome(j).value.url in blacklist)
    decreases ATTEMPTS - i
  {
    var res := FetchFrom(blacklist, outcome, i);
    if outcome(i).Ok? && outcome(i).value.url !in blacklist {
      assert outcome(i) == res;
    } else {
      FetchFoundIsFresh(blacklist, outcome, i + 1);
      var k :| i + 1 <= k < ATTEMPTS && outcome(k) == res
        && forall j :: i + 1 <= j < k ==> outcome(j).Ok? && outcome(j).value.url in blacklist;
      assert forall j :: i <= j < k ==> outcome(j).Ok? && outcome(j).value.url in blacklist;
    }
  }

  /** The fetch gives up exactly when every one of the remaining attempts
      produced a meme and each was blacklisted. */
  lemma {:induction false} FetchExhaustedIff(blacklist: set<string>, outcome: nat -> Result<Candidate, Error>, i: nat)
    requires i <= ATTEMPTS
    requires forall k :: outcome(k) != Err(FetchNotUnique)
    ensures FetchFrom(blacklist, outcome, i) == Err(FetchNotUnique) <==>
      forall k :: i <= k < ATTEMPTS ==> outcome(k).Ok? && outcome(k).value.url in blacklist
    decreases ATTEMPTS - i
  {
    if i < ATTEMPTS {
      FetchExhaustedIff(blacklist, outcome, i + 1);
    }
  }

  /** A single pick never reports the exhausted-fetch error itself. */
  lemma PicksNeverExhaust(key: Option<string>, lang: Option<string>, rounds: nat -> Round)
    ensures forall k :: Attempts(key, lang, rounds)(k) != Err(FetchNotUnique)
  {
    forall k ensures Attempts(key, lang, rounds)(k) != Err(FetchNotUnique) {
      assert Attempts(key, lang, rounds)(k) == Pick(key, lang, rounds(k));
    }
  }

  /** The fetch of fetch_external_unique gives up exactly when each of its
      20 picks produced a meme and every one of them was blacklisted. */
  lemma FetchGivesUpIff(key: Option<string>, lang: Option<string>, blacklist: set<string>, rounds: nat -> Round)
    ensures var outcome := Attempts(key, lang, rounds);
      FetchFrom(blacklist, outcome, 0) == Err(FetchNotUnique) <==>
        forall k :: 0 <= k < ATTEMPTS ==> outcome(k).Ok? && outcome(k).value.url in blacklist
  {
    PicksNeverExhaust(key, lang, rounds);
    FetchExhaustedIff(blacklist, Attempts(key, lang, rounds), 0);
  }

  /** fetch_external_unique: at most 20 picks; the first pick that raises
      ends the fetch with that error. `picks` counts the picks made. */
  method FetchExternalUnique(key: Option<string>, lang: Option<string>, blacklist: set<string>,
                             rounds: nat -> Round) returns (res: Result<Candidate, Error>, picks: nat)
    ensures res == FetchFrom(blacklist, Attempts(key, lang, rounds), 0)
    ensures 1 <= picks <= ATTEMPTS
    ensures res.Ok? ==> res.value.url !in blacklist && res == Attempts(key, lang, rounds)(picks - 1)
    ensures res == Err(FetchNotUnique) ==> picks == ATTEMPTS
  {
    var outcome := Attempts(key, lang, rounds);
    PicksNeverExhaust(key, lang, rounds);
    var i := 0;
    while i < ATTEMPTS
      invariant 0 <= i <= ATTEMPTS
      invariant FetchFrom(blacklist, outcome, 0) == FetchFrom(blacklist, outcome, i)
    {
      var m := outcome(i);
      if m.Err? {
        return Err(m.error), i + 1;
      }
      if m.value.url !in blacklist {
        return Ok(m.value), i + 1;
      }
      i := i + 1;
    }
    return Err(FetchNotUnique), ATTEMPTS;
  }
}

=== FILE: bot.dfy ===
/** The bot's own tables (the per-(user, chat) action lock and the two
    registration lists), the identity rule, and send_meme's call into the
    fetcher. */
module Bot {
  import opened Common
  import opened Store
  import Aggregator
  import Engine

  const LANG_EN: int := 1
  const LANG_RU: int := 2

  /** Action_ID values of the lock table. */
  const IDLE: int := 0
  const STARTED: int := 1
  const MODE_SELECT: int := 2
  const AWAITING_KEYWORDS: int := 3

  /** The chat an update arrives in. */
  datatype Chat = Chat(kind: string, id: int)

  /** The handlers' chat scope: 0 in a private chat, the chat's id otherwise. */
  function ChatScope(chat: Chat): int {
    if chat.kind == "private" then 0 else chat.id
  }

  /** `1 if lang == 2 else 2`: the handlers' other language, always one of the two. */
  function OtherLang(lang: int): (l: int)
    ensures l != lang && (l == LANG_EN || l == LANG_RU)
  {
    if lang == LANG_RU then LANG_EN else LANG_RU
  }

  /** Toggling twice gives back either language. */
  lemma OtherLangTwice(lang: int)
    requires lang == LANG_EN || lang == LANG_RU
    ensures OtherLang(OtherLang(lang)) == lang
  {
  }

  /** A row of memes_user_list or memes_chat_list. */
  datatype RegRow = RegRow(telegramId: int, langId: int)

  /** The LANG_ID of the first row registered for `id`, if there is one. */
  function FirstLang(rows: seq<RegRow>, id: int): (r: Option<int>)
    ensures r.None? <==> forall row :: row in rows ==> row.telegramId != id
    ensures r.Some? ==> exists i :: (0 <= i < |rows| && rows[i] == RegRow(id, r.value)
      && forall j :: 0 <= j < i ==> rows[j].telegramId != id)
  {
    if rows == [] then None
    else if rows[0].telegramId == id then Some(rows[0].langId)
    else
      var rest := FirstLang(rows[1..], id);
      assert forall row :: row in rows ==> row == rows[0] || row in rows[1..];
      if rest.Some? then
        var i :| 0 <= i < |rows[1..]| && rows[1..][i] == RegRow(id, rest.value)
          && forall j :: 0 <= j < i ==> rows[1..][j].telegramId != id;
        assert rows[i + 1] == RegRow(id, rest.value);
        rest
      else rest
  }

  /** The first registration of `id` wins, however many rows follow. */
  lemma {:induction false} FirstLangAppend(rows: seq<RegRow>, id: int, extra: RegRow)
    ensures FirstLang(rows, id).Some? ==> FirstLang(rows + [extra], id) == FirstLang(rows, id)
    ensures FirstLang(rows, id).None? && extra.telegramId == id ==> FirstLang(rows + [extra], id) == Some(extra.langId)
  {
    if rows != [] {
      assert (rows + [extra])[1..] == rows[1..] + [extra];
      FirstLangAppend(rows[1..], id, extra);
    }
  }

  /** The user and chat arguments send_meme passes to the fetcher. */
  function EngineUser(uid: int, cid: int): Option<int> {
    if cid == 0 then Some(uid) else None
  }

  function EngineChat(uid: int, cid: int): Option<int> {
    if cid != 0 then Some(cid) else None
  }

  /** send_meme's language argument. */
  function MemeLangArg(lang: int): string {
    if lang == LANG_RU then "rus" else "eng"
  }

  /** send_meme passes exactly one of user and chat, so a private chat is
      served under the user's blacklist and a group under the chat's. */
  lemma SendMemeIdentity(uid: int, cid: int)
    ensures EngineUser(uid, cid).Some? != EngineChat(uid, cid).Some?
    ensures IdentityClause(Engine.FieldOf(EngineUser(uid, cid))) == (if cid == 0 then UserIdColumn else ChatIdColumn)
    ensures Engine.ValueOf(EngineUser(uid, cid), EngineChat(uid, cid)) == Some(if cid == 0 then uid else cid)
  {
  }

  /** The chat scope separates a user's private chat from a group chat:
      different lock rows and different blacklists. In a group, all members
      share the chat's blacklist while each has a lock row of their own. */
  lemma ChatScopeSeparates(u1: int, u2: int, p: Chat, g: Chat)
    requires p.kind == "private" && g.kind != "private" && g.id != 0
    ensures (u1, ChatScope(p)) != (u1, ChatScope(g))
    ensures IdentityClause(Engine.FieldOf(EngineUser(u1, ChatScope(p)))) == UserIdColumn
    ensures IdentityClause(Engine.FieldOf(EngineUser(u1, ChatScope(g)))) == ChatIdColumn
    ensures Engine.ValueOf(EngineUser(u1, ChatScope(g)), EngineChat(u1, ChatScope(g)))
         == Engine.ValueOf(EngineUser(u2, ChatScope(g)), EngineChat(u2, ChatScope(g))) == Some(g.id)
    ensures u1 != u2 ==> (u1, ChatScope(g)) != (u2, ChatScope(g))
  {
    SendMemeIdentity(u1, ChatScope(p));
    SendMemeIdentity(u1, ChatScope(g));
    SendMemeIdentity(u2, ChatScope(g));
  }

  /** The fetcher request send_meme makes: keywords as given, "rus" or
      "eng", and the identity of the chat scope. */
  function MemeRequest(uid: int, cid: int, lang: int, keywords: Option<string>): Engine.Request {
    Engine.Request(keywords, Some(MemeLangArg(lang)), EngineUser(uid, cid), EngineChat(uid, cid))
  }

  /** What a delivery by send_meme means for the identity: the meme was not
      in its blacklist and now is, and its keyword row carries the keywords
      and "rus" or "eng". */
  lemma SendMemeDeliversFresh(t: Tables, nextId: nat, uid: int, cid: int, lang: int, keywords: Option<string>,
                              w: Engine.World)
    requires Consistent(t) && IdsBelow(t.assets, nextId)
    ensures var q := MemeRequest(uid, cid, lang, keywords);
      var r, t' := Engine.Outcome(t, nextId, q, w), Engine.After(t, nextId, q, w);
      var field, val := Engine.Field(q), Engine.Value(q);
      r.Ok? ==>
        && r.value.url !in Blacklist(t, field, val)
        && r.value.url in Blacklist(t', field, val)
        && t'.usage == t.usage + [UsageRowFor(r.value.assetId, keywords, Some(MemeLangArg(lang)), field, val)]
  {
    var q := MemeRequest(uid, cid, lang, keywords);
    SendMemeIdentity(uid, cid);
    Engine.DeliveredIsFresh(t, nextId, q, w);
    assert Truthy(q.lang);
    assert forall id: nat :: (Engine.UsageRowsFor(id, q.keywords, q.lang, Engine.Field(q), Engine.Value(q))
      == [UsageRowFor(id, keywords, Some(MemeLangArg(lang)), Engine.Field(q), Engine.Value(q))]);
  }

  /** BotDB: the lock and registration tables, next to the meme tables of
      the same database. */
  class BotDb {
    var locks: map<(int, int), int>   // memes_actions_tg_bot: (User_ID, Chat_ID) -> Action_ID
    var userList: seq<RegRow>         // memes_user_list
    var chatList: seq<RegRow>         // memes_chat_list
    const store: Db                   // memes_all_urls, memes_queries_journal, memes_key_words_using

    ghost predicate Valid()
      reads this, store
    {
      && store.Valid() && Consistent(store.Snapshot())
      && forall k :: k in locks ==> IDLE <= locks[k] <= AWAITING_KEYWORDS
    }

    constructor (store: Db)
      requires store.Valid() && Consistent(store.Snapshot())
      ensures Valid() && this.store == store
      ensures locks == map[] && userList == [] && chatList == []
    {
      this.store := store;
      locks, userList, chatList := map[], [], [];
    }

    /** action_id: the code of the row, None when there is none. */
    function ActionId(uid: int, cid: int): Option<int>
      reads this
    {
      if (uid, cid) in locks then Some(locks[(uid, cid)]) else None
    }

    /** lock_exists: a row with a positive code; a row at 0 is no lock. */
    function LockExists(uid: int, cid: int): (b: bool)
      reads this
      ensures b <==> ActionId(uid, cid).Some? && ActionId(uid, cid).value > IDLE
    {
      (uid, cid) in locks && locks[(uid, cid)] > 0
    }

    /** set_action: an upsert, so the pair keeps one row holding the last code set. */
    method SetAction(uid: int, cid: int, aid: int)
      modifies this
      ensures locks == old(locks)[(uid, cid) := aid]
      ensures ActionId(uid, cid) == Some(aid)
      ensures userList == old(userList) && chatList == old(chatList)
    {
      locks := locks[(uid, cid) := aid];
    }

    /** clear_lock: deletes the row. */
    method ClearLock(uid: int, cid: int)
      modifies this
      ensures locks == old(locks) - {(uid, cid)}
      ensures ActionId(uid, cid).None? && !LockExists(uid, cid)
      ensures userList == old(userList) && chatList == old(chatList)
    {
      locks := locks - {(uid, cid)};
    }

    /** lang: the chat's registered language in a group chat, else the
        user's, else English. */
    function Lang(uid: int, cid: int): (l: int)
      reads this
      ensures cid != 0 && (exists row :: row in chatList && row.telegramId == cid) ==> RegRow(cid, l) in chatList
      ensures !(cid != 0 && (exists row :: row in chatList && row.telegramId == cid)) ==>
        RegRow(uid, l) in userList || (l == LANG_EN && forall row :: row in userList ==> row.telegramId != uid)
    {
      var chatLang := if cid != 0 then FirstLang(chatList, cid) else None;
      if chatLang.Some? then chatLang.value
      else
        var userLang := FirstLang(userList, uid);
        if userLang.Some? then userLang.value else LANG_EN
    }

    /** is_registered: the chat list in a group chat, the user list in a private one. */
    function IsRegistered(uid: int, cid: int): (b: bool)
      reads this
      ensures cid != 0 ==> (b <==> exists row :: row in chatList && row.telegramId == cid)
      ensures cid == 0 ==> (b <==> exists row :: row in userList && row.telegramId == uid)
    {
      if cid != 0 then FirstLang(chatList, cid).Some? else FirstLang(userList, uid).Some?
    }

    /** register: one row in the list is_registered reads. */
    method Register(uid: int, cid: int, langId: int)
      modifies this
      ensures cid != 0 ==> chatList == old(chatList) + [RegRow(cid, langId)] && userList == old(userList)
      ensures cid == 0 ==> userList == old(userList) + [RegRow(uid, langId)] && chatList == old(chatList)
      ensures locks == old(locks)
      ensures IsRegistered(uid, cid)
      ensures !old(IsRegistered(uid, cid)) ==> Lang(uid, cid) == langId
    {
      if cid != 0 {
        FirstLangAppend(chatList, cid, RegRow(cid, langId));
        chatList := chatList + [RegRow(cid, langId)];
      } else {
        FirstLangAppend(userList, uid, RegRow(uid, langId));
        userList := userList + [RegRow(uid, langId)];
      }
    }
  }

  /** send_meme: one fetcher run for the identity and language of the
      update (the cache sweep and the photo upload are not modelled). */
  method SendMeme(db: BotDb, uid: int, cid: int, lang: int, keywords: Option<string>, w: Engine.World)
    returns (res: Result<Engine.Delivery, Error>)
    requires db.Valid()
    modifies db.store
    ensures db.Valid()
    ensures var q := MemeRequest(uid, cid, lang, keywords);
      && res == Engine.Outcome(old(db.store.Snapshot()), old(db.store.nextAssetId), q, w)
      && db.store.Snapshot() == Engine.After(old(db.store.Snapshot()), old(db.store.nextAssetId), q, w)
      && db.store.nextAssetId == Engine.NextIdAfter(old(db.store.Snapshot()), old(db.store.nextAssetId), q, w)
    ensures var field, val := Engine.FieldOf(EngineUser(uid, cid)), Engine.ValueOf(EngineUser(uid, cid), EngineChat(uid, cid));
      && Blacklist(old(db.store.Snapshot()), field, val) <= Blacklist(db.store.Snapshot(), field, val)
      && (res.Ok? ==>
            && res.value.url !in Blacklist(old(db.store.Snapshot()), field, val)
            && res.value.url in Blacklist(db.store.Snapshot(), field, val)
            && db.store.usage == old(db.store.usage) + [UsageRowFor(res.value.assetId, keywords, Some(MemeLangArg(lang)), field, val)])
    ensures res.Err? && res.error != DownloadFailed ==> db.store.Snapshot() == old(db.store.Snapshot())
  {
    SendMemeDeliversFresh(db.store.Snapshot(), db.store.nextAssetId, uid, cid, lang, keywords, w);
    Engine.WritesOnlyForACandidate(db.store.Snapshot(), db.store.nextAssetId, MemeRequest(uid, cid, lang, keywords), w);
    var langArg := if lang == LANG_RU then "rus" else "eng";
    var user := if cid == 0 then Some(uid) else None;
    var chat := if cid != 0 then Some(cid) else None;
    res := Engine.Run(db.store, keywords, Some(langArg), user, chat, w.rounds, w.downloadOk, w.now);
  }
}

=== FILE: common.dfy ===
/** Values shared by the fetcher and the bot: optional values, results, and
    the failures that cross the fetcher's boundary. */
module Common {

  datatype Option<T> = None | Some(value: T)

  datatype Result<T, E> = Ok(value: T) | Err(error: E)

  /** The exceptions the fetcher can raise while picking or delivering a meme. */
  datatype Error =
    | MemeApiFailed     // meme_api_random has no handler: a failed request escapes
    | GiphyFailed       // giphy_ru_search: an error other than ApiException escapes
    | NoRuMemeFound     // pick_russian_meme: "No RU meme found"
    | FetchNotUnique    // fetch_external_unique: every attempt was blacklisted
    | UrlLookupFailed   // get_url_id as written: reading `r.id` off a row with column "ID"
    | DownloadFailed    // download: the image could not be fetched or written

  /** Python truthiness of a `str | None`: both None and "" are false. */
  predicate Truthy(s: Option<string>) {
    s.Some? && s.value != ""
  }
}

=== FILE: download.dfy ===
/** The local file name `download` gives a fetched image: the last segment
    of the URL's path, or a time-stamped fallback when there is none. */
module Download {

  predicate IsAsciiLetter(c: char) {
    ('a' <= c <= 'z') || ('A' <= c <= 'Z')
  }

  predicate IsSchemeChar(c: char) {
    IsAsciiLetter(c) || ('0' <= c <= '9') || c == '+' || c == '-' || c == '.'
  }

  /** The index of the first character of `s` that is in `stops`, or |s|. */
  function IndexOfAny(s: string, stops: set<char>): (i: nat)
    ensures i <= |s|
    ensures i < |s| ==> s[i] in stops
    ensures forall k :: 0 <= k < i ==> s[k] !in stops
  {
    if s == [] then 0
    else if s[0] in stops then 0
    else
      var i := IndexOfAny(s[1..], stops);
      assert forall k :: 1 <= k < 1 + i ==> s[k] == s[1..][k - 1];
      1 + i
  }

  /** Where the URL continues after its "scheme:" prefix: 0 when it has none. */
  function SchemeEnd(url: string): (a: nat)
    ensures a <= |url|
  {
    var i := IndexOfAny(url, {':'});
    if 0 < i < |url| && IsAsciiLetter(url[0]) && (forall k :: 0 <= k < i ==> IsSchemeChar(url[k]))
    then i + 1
    else 0
  }

  /** urlparse(url).path for a URL of the form scheme://netloc/path?query#fragment:
      a piece of the URL that holds no query or fragment delimiter. */
  function UrlPath(url: string): (path: string)
    ensures exists i: nat, j: nat :: i <= j <= |url| && path == url[i..j]
    ensures '?' !in path && '#' !in path
  {
    var a := SchemeEnd(url);
    var b := if a + 2 <= |url| && url[a..a + 2] == "//" then a + 2 + IndexOfAny(url[a + 2..], {'/', '?', '#'}) else a;
    var e := b + IndexOfAny(url[b..], {'?', '#'});
    var path := url[b..e];
    assert forall k :: 0 <= k < |path| ==> path[k] == url[b..][k];
    path
  }

  /** IndexOfAny is pinned down by its contract: the first stop, or |s|. */
  lemma IndexOfAnyIs(s: string, stops: set<char>, i: nat)
    requires i <= |s|
    requires forall k :: 0 <= k < i ==> s[k] !in stops
    requires i < |s| ==> s[i] in stops
    ensures IndexOfAny(s, stops) == i
  {
  }

  /** An "https://" URL's scheme ends after its ':'. */
  lemma SchemeEndOfHttps(rest: string)
    ensures SchemeEnd("https://" + rest) == 6
  {
    var url := "https://" + rest;
    IndexOfAnyIs(url, {':'}, 5);
    assert forall k :: 0 <= k < 5 ==> IsSchemeChar(url[k]);
  }

  /** After a "scheme://" prefix, the path runs from the end of the host
      to the query or fragment. */
  lemma UrlPathAfterHost(url: string, b: nat, e: nat)
    requires SchemeEnd(url) == 6 && 8 <= |url| && url[6..8] == "//"
    requires b == 8 + IndexOfAny(url[8..], {'/', '?', '#'})
    requires e == b + IndexOfAny(url[b..], {'?', '#'})
    ensures UrlPath(url) == url[b..e]
  {
  }

  /** A host free of '/', '?' and '#' is skipped whole by the authority scan. */
  lemma HostHasNoStop(host: string, path: string)
    requires forall c :: c in host ==> c != '/' && c != '?' && c != '#'
    ensures forall k :: 0 <= k < |host| ==> (host + path)[k] !in {'/', '?', '#'}
  {
    assert forall k :: 0 <= k < |host| ==> (host + path)[k] == host[k] && host[k] in host;
  }

  /** A path free of '?' and '#' is scanned to its end for the query. */
  lemma PathHasNoStop(path: string)
    requires '?' !in path && '#' !in path
    ensures forall k :: 0 <= k < |path| ==> path[k] !in {'?', '#'}
  {
  }

  /** For "https://host/path", the path is everything after the host up to
      the query or fragment: urlparse's path component. */
  lemma UrlPathOfHttpUrl(host: string, path: string)
    requires forall c :: c in host ==> c != '/' && c != '?' && c != '#'
    requires path == [] || path[0] == '/'
    requires '?' !in path && '#' !in path
    ensures UrlPath("https://" + host + path) == path
  {
    var rest := host + path;
    var url := "https://" + rest;
    assert "https://" + host + path == url;
    SchemeEndOfHttps(rest);
    assert url[8..] == rest;
    HostHasNoStop(host, path);
    IndexOfAnyIs(rest, {'/', '?', '#'}, |host|);
    var b := 8 + |host|;
    assert url[b..] == path;
    PathHasNoStop(path);
    IndexOfAnyIs(path, {'?', '#'}, |path|);
    UrlPathAfterHost(url, b, b + |path|);
    assert url[b..b + |path|] == path;
  }

  /** The index of the last '/' in `p`, or -1. */
  function LastSlash(p: string): (i: int)
    ensures -1 <= i < |p|
    ensures i >= 0 ==> p[i] == '/'
    ensures forall k :: i < k < |p| ==> p[k] != '/'
  {
    if p == [] then -1
    else if p[|p| - 1] == '/' then |p| - 1
    else LastSlash(p[..|p| - 1])
  }

  /** `name` occupies p[i..i + |name|] as a whole '/'-separated segment. */
  predicate SegmentAt(p: string, i: nat, name: string) {
    && i + |name| <= |p| && p[i..i + |name|] == name
    && (i == 0 || p[i - 1] == '/') && (i + |name| == |p| || p[i + |name|] == '/')
  }

  /** p[k] is a "." segment of its own. */
  predicate DotSegmentAt(p: string, k: nat) {
    k < |p| && p[k] == '.' && (k == 0 || p[k - 1] == '/') && (k + 1 == |p| || p[k + 1] == '/')
  }

  /** From index `from` on, `p` holds only separators and "." segments. */
  predicate OnlyEmptyOrDotSegments(p: string, from: nat) {
    forall k :: from <= k < |p| ==> p[k] == '/' || DotSegmentAt(p, k)
  }

  /** A segment of the prefix p[..i] that only empty and "." segments follow
      there is still such a segment of p, when p[i..] too holds only those. */
  lemma SegmentOfPrefix(p: string, i: nat, j: nat, name: string)
    requires i <= |p| && SegmentAt(p[..i], j, name) && OnlyEmptyOrDotSegments(p[..i], j + |name|)
    requires i < |p| && p[i] == '/' && OnlyEmptyOrDotSegments(p, i)
    ensures SegmentAt(p, j, name) && OnlyEmptyOrDotSegments(p, j + |name|)
  {
    assert j > 0 ==> p[j - 1] == p[..i][j - 1];
    assert j + |name| < i ==> p[j + |name|] == p[..i][j + |name|];
    forall k | 0 <= k < |name| ensures p[j + k] == name[k] {
      assert p[..i][j..j + |name|][k] == name[k];
    }
    assert p[j..j + |name|] == name;
    forall k | j + |name| <= k < i
      ensures p[k] == '/' || DotSegmentAt(p, k)
    {
      var q := p[..i];
      assert q[k] == '/' || DotSegmentAt(q, k);
      assert p[k] == q[k];
      assert k > 0 ==> p[k - 1] == q[k - 1];
      assert k + 1 < i ==> p[k + 1] == q[k + 1];
      assert k + 1 == i ==> p[k + 1] == '/';
    }
  }

  /** Only empty and "." segments before and from the separator at index i:
      only those in all of p. */
  lemma SlashesAndDotsJoin(p: string, i: nat)
    requires i < |p| && p[i] == '/' && OnlyEmptyOrDotSegments(p[..i], 0) && OnlyEmptyOrDotSegments(p, i)
    ensures OnlyEmptyOrDotSegments(p, 0)
  {
    forall k | 0 <= k < i
      ensures p[k] == '/' || DotSegmentAt(p, k)
    {
      var q := p[..i];
      assert q[k] == '/' || DotSegmentAt(q, k);
      assert p[k] == q[k];
      assert k > 0 ==> p[k - 1] == q[k - 1];
      assert k + 1 < i ==> p[k + 1] == q[k + 1];
      assert k + 1 == i ==> p[k + 1] == '/';
    }
  }

  /** Path(p).name: the last segment of `p` that is neither empty nor ".",
      or "" when there is none. */
  function PathName(p: string): (name: string)
    ensures '/' !in name && name != "."
    ensures name != "" ==> exists i: nat :: SegmentAt(p, i, name) && OnlyEmptyOrDotSegments(p, i + |name|)
    ensures name == "" ==> OnlyEmptyOrDotSegments(p, 0)
    decreases |p|
  {
    var i := LastSlash(p);
    var seg := p[i + 1..];
    if seg != "" && seg != "." then
      assert SegmentAt(p, i + 1, seg);
      seg
    else if i < 0 then
      assert seg == p;
      ""
    else
      var name := PathName(p[..i]);
      assert OnlyEmptyOrDotSegments(p, i) by {
        if seg == "." {
          assert |p| == i + 2 && p[i + 1] == '.';
        }
      }
      if name != "" then
        var j: nat :| SegmentAt(p[..i], j, name) && OnlyEmptyOrDotSegments(p[..i], j + |name|);
        SegmentOfPrefix(p, i, j, name);
        name
      else
        SlashesAndDotsJoin(p, i);
        name
  }

  predicate AllDigits(s: string) {
    forall k :: 0 <= k < |s| ==> '0' <= s[k] <= '9'
  }

  /** The number a string of decimal digits denotes. */
  function DigitsValue(s: string): nat
    requires AllDigits(s)
  {
    if s == [] then 0 else DigitsValue(s[..|s| - 1]) * 10 + (s[|s| - 1] as int - '0' as int)
  }

  /** str(n): the decimal digits of n, without a leading zero. */
  function Decimal(n: nat): (s: string)
    ensures s != [] && AllDigits(s)
    ensures DigitsValue(s) == n
    ensures s[0] == '0' <==> n == 0
  {
    var d := [(n % 10) as char + '0'];
    if n < 10 then d
    else
      var init := Decimal(n / 10);
      assert (init + d)[..|init + d| - 1] == init;
      init + d
  }

  /** The fallback name used when the URL path has no usable last segment. */
  function FallbackName(now: nat): (name: string)
    ensures name != "" && '/' !in name
  {
    var d := Decimal(now);
    var name := "meme_" + d + ".jpg";
    assert forall k :: 0 <= k < |name| ==> name[k] != '/' by {
      forall k | 0 <= k < |name| ensures name[k] != '/' {
        if 5 <= k < 5 + |d| { assert name[k] == d[k - 5]; }
      }
    }
    name
  }

  /** download's file name: never empty and never containing '/', so the
      image is written directly inside the download directory. */
  function FileName(url: string, now: nat): (name: string)
    ensures name != "" && '/' !in name
    ensures PathName(UrlPath(url)) != "" ==> name == PathName(UrlPath(url))
    ensures PathName(UrlPath(url)) == "" ==> name == FallbackName(now)
  {
    var seg := PathName(UrlPath(url));
    if seg != "" then seg else FallbackName(now)
  }
}

=== FILE: engine.dfy ===
/** main of the fetcher: blacklist, cache lookup, and on a miss an external
    fetch that is recorded before the file is downloaded. */
module Engine {
  import opened Common
  import opened Aggregator
  import opened Store
  import opened Download
  import opened Providers

  /** What a successful call hands back: the asset, its local file name and
      whether it came from the cache. */
  datatype Delivery = Delivery(assetId: nat, url: string, file: string, fromCache: bool)

  /** The arguments of one call of main. */
  datatype Request = Request(keywords: Option<string>, lang: Option<string>, user: Option<int>, chat: Option<int>)

  /** What main depends on besides the tables: the providers' answers per
      attempt, whether the image download succeeds, and the clock (the new
      asset's date_upload and the fallback file name). */
  datatype World = World(rounds: nat -> Round, downloadOk: bool, now: nat)

  /** `field = 'USER_ID' if user is not None else 'CHAT_ID'` */
  function FieldOf(user: Option<int>): (field: string)
    ensures IdentityClause(field) == UserIdColumn <==> user.Some?
  {
    if user.Some? then "USER_ID" else "CHAT_ID"
  }

  /** `val = user if user is not None else chat`: NULL only when neither is given. */
  function ValueOf(user: Option<int>, chat: Option<int>): (val: Option<int>)
    ensures val.None? <==> user.None? && chat.None?
  {
    if user.Some? then user else chat
  }

  /** The journal row of a delivery holds the user in USER_ID when a user is
      given, and otherwise the chat in CHAT_ID; the other column is NULL. */
  lemma IdentityRow(urlId: nat, user: Option<int>, chat: Option<int>)
    ensures JournalRowFor(urlId, FieldOf(user), ValueOf(user, chat))
         == JournalRow(user, if user.Some? then None else chat, urlId)
  {
  }

  /** The keyword row main adds, only when keywords or a language are truthy. */
  function UsageRowsFor(urlId: nat, keywords: Option<string>, lang: Option<string>,
                        field: string, val: Option<int>): seq<UsageRow> {
    if Truthy(keywords) || Truthy(lang) then [UsageRowFor(urlId, keywords, lang, field, val)] else []
  }

  /** The asset ID a fetched url ends up with: its existing row, or the next ID. */
  function ResolvedId(assets: seq<Asset>, url: string, nextId: nat): nat {
    var known := GetUrlId(assets, url);
    if known.Some? then known.value else nextId
  }

  /** The field and value main computes from a request. */
  function Field(q: Request): string {
    FieldOf(q.user)
  }

  function Value(q: Request): Option<int> {
    ValueOf(q.user, q.chat)
  }

  /** Step 2 of main: find_cached_url for the request. */
  function Cached(t: Tables, q: Request): Option<Asset> {
    FindCachedUrl(t, q.keywords, q.lang, Field(q), Value(q))
  }

  /** Step 3 of main: fetch_external_unique against the identity's blacklist. */
  function Fetched(t: Tables, q: Request, w: World): Result<Candidate, Error> {
    FetchFrom(Blacklist(t, Field(q), Value(q)), Attempts(q.keywords, q.lang, w.rounds), 0)
  }

  /** The tables once the journal row and, with truthy keywords or language,
      the keyword row of asset `id` are appended. */
  function Recorded(t: Tables, id: nat, q: Request): Tables {
    Tables(t.assets, t.journal + [JournalRowFor(id, Field(q), Value(q))],
           t.usage + UsageRowsFor(id, q.keywords, q.lang, Field(q), Value(q)))
  }

  /** The tables once a fetched meme has an asset row: unchanged for a known
      url, one row with the next ID appended otherwise. */
  function WithAsset(t: Tables, m: Candidate, nextId: nat, now: nat): Tables {
    if GetUrlId(t.assets, m.url).Some? then t
    else Tables(t.assets + [Asset(nextId, m.url, m.title, m.source, now)], t.journal, t.usage)
  }

  /** What one call of main returns, from the tables and the next asset ID
      before it. */
  function Outcome(t: Tables, nextId: nat, q: Request, w: World): Result<Delivery, Error> {
    var cached := Cached(t, q);
    if cached.Some? then
      if w.downloadOk then Ok(Delivery(cached.value.id, cached.value.url, FileName(cached.value.url, w.now), true))
      else Err(DownloadFailed)
    else
      var fetched := Fetched(t, q, w);
      if fetched.Err? then Err(fetched.error)
      else if !w.downloadOk then Err(DownloadFailed)
      else
        var m := fetched.value;
        Ok(Delivery(ResolvedId(t.assets, m.url, nextId), m.url, FileName(m.url, w.now), false))
  }

  /** The tables after one call of main. A cache hit downloads before it
      writes; a miss writes before it downloads. */
  function After(t: Tables, nextId: nat, q: Request, w: World): Tables {
    var cached := Cached(t, q);
    if cached.Some? then
      if w.downloadOk then Recorded(t, cached.value.id, q) else t
    else
      var fetched := Fetched(t, q, w);
      if fetched.Err? then t
      else
        var m := fetched.value;
        Recorded(WithAsset(t, m, nextId, w.now), ResolvedId(t.assets, m.url, nextId), q)
  }

  /** The next asset ID after one call of main: one more when a new url was inserted. */
  function NextIdAfter(t: Tables, nextId: nat, q: Request, w: World): nat {
    var fetched := Fetched(t, q, w);
    if Cached(t, q).None? && fetched.Ok? && GetUrlId(t.assets, fetched.value.url).None? then nextId + 1
    else nextId
  }

  /** Appending the delivery rows of an existing asset keeps the tables consistent. */
  lemma RecordedConsistent(t: Tables, id: nat, q: Request)
    requires Consistent(t) && HasAsset(t.assets, id)
    ensures Consistent(Recorded(t, id, q))
  {
    var t' := Recorded(t, id, q);
    forall r | r in t'.journal ensures HasAsset(t'.assets, r.urlId) {
      if r !in t.journal {
        assert r == JournalRowFor(id, Field(q), Value(q));
      }
    }
    forall k | k in t'.usage ensures HasAsset(t'.assets, k.urlId) {
      if k !in t.usage {
        assert k == UsageRowFor(id, q.keywords, q.lang, Field(q), Value(q));
      }
    }
  }

  /** The asset row of a fetched meme keeps the tables consistent, keeps the
      IDs below the sequence, and carries the ID main journals. */
  lemma WithAssetConsistent(t: Tables, m: Candidate, nextId: nat, now: nat)
    requires Consistent(t) && IdsBelow(t.assets, nextId)
    ensures var t' := WithAsset(t, m, nextId, now);
      && Consistent(t')
      && IdsBelow(t'.assets, if GetUrlId(t.assets, m.url).Some? then nextId else nextId + 1)
      && t'.journal == t.journal && t'.usage == t.usage
      && (forall a :: a in t.assets ==> a in t'.assets)
      && exists a :: a in t'.assets && a.id == ResolvedId(t.assets, m.url, nextId) && a.url == m.url
  {
    var t' := WithAsset(t, m, nextId, now);
    if GetUrlId(t.assets, m.url).None? {
      var added := Asset(nextId, m.url, m.title, m.source, now);
      assert t'.assets == t.assets + [added];
      assert added in t'.assets;
      assert UrlsUnique(t'.assets) by {
        forall i, j | 0 <= i < j < |t'.assets| ensures t'.assets[i].url != t'.assets[j].url {
          if j == |t.assets| {
            assert t'.assets[i] in t.assets;
          } else {
            assert t'.assets[i] == t.assets[i] && t'.assets[j] == t.assets[j];
          }
        }
      }
      assert IdsUnique(t'.assets) by {
        forall i, j | 0 <= i < j < |t'.assets| ensures t'.assets[i].id != t'.assets[j].id {
          if j == |t.assets| {
            assert t'.assets[i] in t.assets;
          } else {
            assert t'.assets[i] == t.assets[i] && t'.assets[j] == t.assets[j];
          }
        }
      }
      forall r | r in t'.journal ensures HasAsset(t'.assets, r.urlId) {
        assert HasAsset(t.assets, r.urlId);
      }
      forall k | k in t'.usage ensures HasAsset(t'.assets, k.urlId) {
        assert HasAsset(t.assets, k.urlId);
      }
    }
  }

  /** One call of main keeps the tables consistent and the asset IDs below
      the sequence, which never goes back. */
  lemma AfterConsistent(t: Tables, nextId: nat, q: Request, w: World)
    requires Consistent(t) && IdsBelow(t.assets, nextId)
    ensures Consistent(After(t, nextId, q, w))
    ensures IdsBelow(After(t, nextId, q, w).assets, NextIdAfter(t, nextId, q, w))
    ensures nextId <= NextIdAfter(t, nextId, q, w)
  {
    var cached := Cached(t, q);
    if cached.Some? {
      if w.downloadOk {
        RecordedConsistent(t, cached.value.id, q);
      }
    } else if Fetched(t, q, w).Ok? {
      var m := Fetched(t, q, w).value;
      WithAssetConsistent(t, m, nextId, w.now);
      RecordedConsistent(WithAsset(t, m, nextId, w.now), ResolvedId(t.assets, m.url, nextId), q);
    }
  }

  /** Rows are only added: no identity's blacklist ever loses a url. */
  lemma BlacklistNeverShrinks(t: Tables, nextId: nat, q: Request, w: World, field: string, val: Option<int>)
    ensures Blacklist(t, field, val) <= Blacklist(After(t, nextId, q, w), field, val)
  {
    var t' := After(t, nextId, q, w);
    if Cached(t, q).None? && Fetched(t, q, w).Ok? {
      var m := Fetched(t, q, w).value;
      var t1 := WithAsset(t, m, nextId, w.now);
      assert forall a :: a in t.assets ==> a in t1.assets;
    }
    BlacklistGrows(t, t', field, val);
  }

  /** A delivered meme was not in the identity's blacklist before the call,
      is in it afterwards (for a non-NULL identity), has an asset row with
      the delivered ID, is saved under the download's file name, and its
      delivery is journaled (with a keyword row when keywords or a language
      are truthy). */
  lemma DeliveredIsFresh(t: Tables, nextId: nat, q: Request, w: World)
    requires Consistent(t) && IdsBelow(t.assets, nextId)
    ensures var r := Outcome(t, nextId, q, w);
      r.Ok? ==>
        && r.value.url !in Blacklist(t, Field(q), Value(q))
        && (Value(q).Some? ==> r.value.url in Blacklist(After(t, nextId, q, w), Field(q), Value(q)))
        && (exists a :: a in After(t, nextId, q, w).assets && a.id == r.value.assetId && a.url == r.value.url)
        && r.value.file == FileName(r.value.url, w.now)
        && After(t, nextId, q, w).journal == t.journal + [JournalRowFor(r.value.assetId, Field(q), Value(q))]
        && After(t, nextId, q, w).usage == t.usage + UsageRowsFor(r.value.assetId, q.keywords, q.lang, Field(q), Value(q))
  {
    var r := Outcome(t, nextId, q, w);
    if r.Ok? {
      var t' := After(t, nextId, q, w);
      var cached := Cached(t, q);
      var a: Asset;
      if cached.Some? {
        a := cached.value;
        NotJournaledNotBlacklisted(t, a, Field(q), Value(q));
        assert t' == Recorded(t, a.id, q);
      } else {
        var m := Fetched(t, q, w).value;
        FetchFoundIsFresh(Blacklist(t, Field(q), Value(q)), Attempts(q.keywords, q.lang, w.rounds), 0);
        WithAssetConsistent(t, m, nextId, w.now);
        a :| a in WithAsset(t, m, nextId, w.now).assets && a.id == ResolvedId(t.assets, m.url, nextId) && a.url == m.url;
        assert t' == Recorded(WithAsset(t, m, nextId, w.now), a.id, q);
      }
      assert a in t'.assets && a.id == r.value.assetId && a.url == r.value.url;
      assert JournalRowFor(a.id, Field(q), Value(q)) in t'.journal;
      if Value(q).Some? {
        JournaledIsBlacklisted(t', a, Field(q), Value(q));
      }
    }
  }

  /** Nothing is written unless a candidate was found; on a cache hit the
      download comes before the writes; on a miss the writes come before
      the download, so a failed download still counts as a delivery. */
  lemma WritesOnlyForACandidate(t: Tables, nextId: nat, q: Request, w: World)
    ensures var r := Outcome(t, nextId, q, w);
      r.Err? && r.error != DownloadFailed ==> After(t, nextId, q, w) == t && NextIdAfter(t, nextId, q, w) == nextId
    ensures Cached(t, q).Some? && !w.downloadOk ==> After(t, nextId, q, w) == t
    ensures Cached(t, q).None? ==>
      After(t, nextId, q, w) == After(t, nextId, q, w.(downloadOk := !w.downloadOk))
  {
  }

  /** On a cache hit no provider is asked: the providers' answers make no
      difference to the result or the tables. */
  lemma CacheHitAsksNoProvider(t: Tables, nextId: nat, q: Request, w: World, rounds: nat -> Round)
    requires Cached(t, q).Some?
    ensures Outcome(t, nextId, q, w) == Outcome(t, nextId, q, w.(rounds := rounds))
    ensures After(t, nextId, q, w) == After(t, nextId, q, w.(rounds := rounds))
  {
  }

  /** Two successful calls of main for the same identity, with any keywords
      and languages, never deliver the same url. */
  lemma RequestTwiceNeverRepeats(t: Tables, nextId: nat, q1: Request, w1: World, q2: Request, w2: World)
    requires Consistent(t) && IdsBelow(t.assets, nextId)
    requires q1.user == q2.user && q1.chat == q2.chat && Value(q1).Some?
    ensures var t1, n1 := After(t, nextId, q1, w1), NextIdAfter(t, nextId, q1, w1);
      Outcome(t, nextId, q1, w1).Ok? && Outcome(t1, n1, q2, w2).Ok? ==>
        Outcome(t, nextId, q1, w1).value.url != Outcome(t1, n1, q2, w2).value.url
  {
    var t1, n1 := After(t, nextId, q1, w1), NextIdAfter(t, nextId, q1, w1);
    DeliveredIsFresh(t, nextId, q1, w1);
    AfterConsistent(t, nextId, q1, w1);
    DeliveredIsFresh(t1, n1, q2, w2);
  }

  /** The writes both paths of main share: add_journal, then
      add_keyword_usage when keywords or a language are truthy. */
  method RecordDelivery(db: Db, urlId: nat, q: Request)
    requires db.Valid() && Consistent(db.Snapshot()) && HasAsset(db.assets, urlId)
    modifies db
    ensures db.Valid() && Consistent(db.Snapshot())
    ensures db.Snapshot() == Recorded(old(db.Snapshot()), urlId, q) && db.nextAssetId == old(db.nextAssetId)
  {
    ghost var t0 := db.Snapshot();
    db.AddJournal(urlId, Field(q), Value(q));
    if Truthy(q.keywords) || Truthy(q.lang) {
      db.AddKeywordUsage(urlId, q.keywords, q.lang, Field(q), Value(q));
    }
    RecordedConsistent(t0, urlId, q);
  }

  /** Lines 265-267 of main: reuse the asset row of a known url, insert one otherwise. */
  method ResolveAsset(db: Db, m: Candidate, now: nat) returns (id: nat)
    requires db.Valid() && Consistent(db.Snapshot())
    modifies db
    ensures db.Valid() && Consistent(db.Snapshot())
    ensures id == ResolvedId(old(db.assets), m.url, old(db.nextAssetId))
    ensures db.Snapshot() == WithAsset(old(db.Snapshot()), m, old(db.nextAssetId), now)
    ensures db.nextAssetId == (if GetUrlId(old(db.assets), m.url).Some? then old(db.nextAssetId) else old(db.nextAssetId) + 1)
  {
    ghost var t0 := db.Snapshot();
    WithAssetConsistent(t0, m, db.nextAssetId, now);
    var known := GetUrlId(db.assets, m.url);
    if known.None? {
      id := db.InsertUrl(m.url, m.title, m.source, now);
    } else {
      id := known.value;
    }
  }

  /** main: the result and the new tables are those of `Outcome` and `After`;
      a delivered meme was not in the identity's blacklist, and no blacklist
      loses a url. */
  method Run(db: Db, keywords: Option<string>, lang: Option<string>, user: Option<int>, chat: Option<int>,
             rounds: nat -> Round, downloadOk: bool, now: nat) returns (res: Result<Delivery, Error>)
    requires db.Valid() && Consistent(db.Snapshot())
    modifies db
    ensures db.Valid() && Consistent(db.Snapshot())
    ensures var q, w := Request(keywords, lang, user, chat), World(rounds, downloadOk, now);
      && res == Outcome(old(db.Snapshot()), old(db.nextAssetId), q, w)
      && db.Snapshot() == After(old(db.Snapshot()), old(db.nextAssetId), q, w)
      && db.nextAssetId == NextIdAfter(old(db.Snapshot()), old(db.nextAssetId), q, w)
    ensures res.Ok? ==> res.value.url !in Blacklist(old(db.Snapshot()), FieldOf(user), ValueOf(user, chat))
    ensures Blacklist(old(db.Snapshot()), FieldOf(user), ValueOf(user, chat))
         <= Blacklist(db.Snapshot(), FieldOf(user), ValueOf(user, chat))
  {
    ghost var t0, n0 := db.Snapshot(), db.nextAssetId;
    ghost var q, w := Request(keywords, lang, user, chat), World(rounds, downloadOk, now);
    DeliveredIsFresh(t0, n0, q, w);
    BlacklistNeverShrinks(t0, n0, q, w, FieldOf(user), ValueOf(user, chat));
    var field := if user.Some? then "USER_ID" else "CHAT_ID";
    var val := if user.Some? then user else chat;
    // 1. blacklist
    var bl := Blacklist(db.Snapshot(), field, val);
    // 2. try cached
    var cached := FindCachedUrl(db.Snapshot(), keywords, lang, field, val);
    if cached.Some? {
      var urlId := cached.value.id;
      if !downloadOk {
        return Err(DownloadFailed);
      }
      var path := FileName(cached.value.url, now);
      RecordDelivery(db, urlId, Request(keywords, lang, user, chat));
      return Ok(Delivery(urlId, cached.value.url, path, true));
    }
    // 3. fetch external
    var meme, picks := FetchExternalUnique(keywords, lang, bl, rounds);
    if meme.Err? {
      return Err(meme.error);
    }
    var m := meme.value;
    WithAssetConsistent(t0, m, n0, now);
    var urlId := ResolveAsset(db, m, now);
    RecordDelivery(db, urlId, Request(keywords, lang, user, chat));
    if !downloadOk {
      return Err(DownloadFailed);
    }
    return Ok(Delivery(urlId, m.url, FileName(m.url, now), false));
  }

  /** Two requests in a row by the same identity, each with its own keywords,
      language, provider answers and download result. */
  method RequestTwice(db: Db, q1: Request, w1: World, q2: Request, w2: World)
    returns (r1: Result<Delivery, Error>, r2: Result<Delivery, Error>)
    requires db.Valid() && Consistent(db.Snapshot())
    requires q1.user == q2.user && q1.chat == q2.chat && (q1.user.Some? || q1.chat.Some?)
    modifies db
    ensures db.Valid() && Consistent(db.Snapshot())
    ensures r1.Ok? && r2.Ok? ==> r1.value.url != r2.value.url
    ensures Blacklist(old(db.Snapshot()), Field(q1), Value(q1)) <= Blacklist(db.Snapshot(), Field(q1), Value(q1))
  {
    ghost var t0, n0 := db.Snapshot(), db.nextAssetId;
    RequestTwiceNeverRepeats(t0, n0, q1, w1, q2, w2);
    r1 := Run(db, q1.keywords, q1.lang, q1.user, q1.chat, w1.rounds, w1.downloadOk, w1.now);
    r2 := Run(db, q2.keywords, q2.lang, q2.user, q2.chat, w2.rounds, w2.downloadOk, w2.now);
  }
}

=== FILE: handlers.dfy ===
/** The bot's handlers as guarded transitions of the lock table. What the
    user sees is reduced to an Outcome; each handler runs to completion
    before the next one starts. */
module Handlers {
  import opened Common
  import opened Store
  import opened Bot
  import Aggregator
  import Engine

  /** The sender and chat of a command or message. */
  datatype Update = Update(uid: int, chat: Chat)

  /** The callback data of the inline buttons; any other string is Unknown. */
  datatype Button = Get | Reg | Cancel | Lang | Any | Key | LangMeme | Unknown(data: string)

  /** What a handler answers. */
  datatype Outcome =
    | LockBusy              // text_lock: a command is already running, or no command is
    | Stale                 // text_lock on AnyMeme / ByKeyWords when the code is not 2
    | NotRegistered
    | StartMenu
    | ModeMenu
    | KeywordPrompt
    | Delivered(d: Engine.Delivery)
    | DeliveryFailed(e: Error)   // the fetcher raised; the handler stops there
    | Cancelled
    | RegisteredNow
    | AlreadyRegistered
    | LanguageToggled
    | MemeLanguageToggled
    | Ignored

  /** ctx.user_data: the session's language and meme language, None while unset. */
  class Session {
    var lang: Option<int>
    var langMeme: Option<int>

    constructor ()
      ensures lang.None? && langMeme.None?
    {
      lang, langMeme := None, None;
    }
  }

  /** The characters Python's str.strip() removes, outside U+2000..U+200A. */
  const SPACES: set<char> :=
    {' ', '\t', '\n', '\r', '\U{000B}', '\U{000C}', '\U{001C}', '\U{001D}', '\U{001E}', '\U{001F}',
     '\U{0085}', '\U{00A0}', '\U{1680}', '\U{2028}', '\U{2029}', '\U{202F}', '\U{205F}', '\U{3000}'}

  /** The characters Python's str.strip() removes. */
  predicate IsSpace(c: char) {
    c in SPACES || ('\U{2000}' <= c <= '\U{200A}')
  }

  /** The index of the first non-whitespace character of s at or after i, or |s|. */
  function FirstNonSpace(s: string, i: nat): (r: nat)
    requires i <= |s|
    ensures i <= r <= |s|
    ensures forall k :: i <= k < r ==> IsSpace(s[k])
    ensures r < |s| ==> !IsSpace(s[r])
    decreases |s| - i
  {
    if i == |s| || !IsSpace(s[i]) then i else FirstNonSpace(s, i + 1)
  }

  /** The end of s[lo..j] once its trailing whitespace is dropped. */
  function EndOfText(s: string, lo: nat, j: nat): (r: nat)
    requires lo <= j <= |s|
    ensures lo <= r <= j
    ensures forall k :: r <= k < j ==> IsSpace(s[k])
    ensures r > lo ==> !IsSpace(s[r - 1])
  {
    if j == lo || !IsSpace(s[j - 1]) then j else EndOfText(s, lo, j - 1)
  }

  /** r is s[i..j], with only whitespace before i and from j on. */
  predicate StrippedAt(s: string, i: nat, j: nat, r: string) {
    && i <= j <= |s| && r == s[i..j]
    && (forall k :: 0 <= k < i ==> IsSpace(s[k]))
    && (forall k :: j <= k < |s| ==> IsSpace(s[k]))
  }

  /** str.strip(): the text between the leading and the trailing whitespace. */
  function Strip(s: string): (r: string)
    ensures exists i: nat, j: nat :: StrippedAt(s, i, j, r)
    ensures r == [] || (!IsSpace(r[0]) && !IsSpace(r[|r| - 1]))
  {
    var i := FirstNonSpace(s, 0);
    var j := EndOfText(s, i, |s|);
    assert StrippedAt(s, i, j, s[i..j]);
    s[i..j]
  }

  /** The handler's answer for the fetcher's result. */
  function Reported(r: Result<Engine.Delivery, Error>): Outcome {
    if r.Ok? then Delivered(r.value) else DeliveryFailed(r.error)
  }

  /** The step get_any_meme, cb_query's AnyMeme and txt_handler share, from
      the meme tables (t0, n0) and lock table (locks0) before it: send_meme
      ran the fetcher for the request; after a delivery the code went to 0,
      and when the fetcher raised the lock stayed as it was. */
  ghost predicate DeliveryStep(t0: Tables, n0: nat, locks0: map<(int, int), int>, db: BotDb, o: Outcome,
                               uid: int, cid: int, lang: int, keywords: Option<string>, w: Engine.World)
    reads db, db.store
  {
    var q := MemeRequest(uid, cid, lang, keywords);
    var r := Engine.Outcome(t0, n0, q, w);
    && o == Reported(r)
    && db.store.Snapshot() == Engine.After(t0, n0, q, w)
    && db.store.nextAssetId == Engine.NextIdAfter(t0, n0, q, w)
    && db.locks == (if r.Ok? then locks0[(uid, cid) := IDLE] else locks0)
  }

  /** send_meme, then set_action(0); an exception from the fetcher skips the reset. */
  method Deliver(db: BotDb, uid: int, cid: int, lang: int, keywords: Option<string>, w: Engine.World)
    returns (o: Outcome)
    requires db.Valid()
    modifies db, db.store
    ensures db.Valid()
    ensures DeliveryStep(old(db.store.Snapshot()), old(db.store.nextAssetId), old(db.locks), db, o,
                         uid, cid, lang, keywords, w)
    ensures db.userList == old(db.userList) && db.chatList == old(db.chatList)
    ensures var field, val := Engine.FieldOf(EngineUser(uid, cid)), Engine.ValueOf(EngineUser(uid, cid), EngineChat(uid, cid));
      o.Delivered? ==>
        && o.d.url !in Blacklist(old(db.store.Snapshot()), field, val)
        && o.d.url in Blacklist(db.store.Snapshot(), field, val)
        && db.store.usage == old(db.store.usage) + [UsageRowFor(o.d.assetId, keywords, Some(MemeLangArg(lang)), field, val)]
  {
    ghost var t0, n0, locks0 := db.store.Snapshot(), db.store.nextAssetId, db.locks;
    var sent := SendMeme(db, uid, cid, lang, keywords, w);
    ghost var t1 := db.store.Snapshot();
    assert db.locks == locks0;
    if sent.Err? {
      o := DeliveryFailed(sent.error);
    } else {
      db.SetAction(uid, cid, IDLE);
      o := Delivered(sent.value);
    }
    assert db.store.Snapshot() == t1;
    assert o == Reported(sent);
  }

  /** cmd_start: busy while a lock exists, otherwise the lock goes to 1. */
  method CmdStart(db: BotDb, session: Session, u: Update) returns (o: Outcome)
    requires db.Valid()
    modifies db, session
    ensures db.Valid()
    ensures var uid, cid := u.uid, ChatScope(u.chat);
      && (old(db.LockExists(uid, cid)) ==> o == LockBusy && db.locks == old(db.locks))
      && (!old(db.LockExists(uid, cid)) ==> o == StartMenu && db.locks == old(db.locks)[(uid, cid) := STARTED])
      && session.lang == Some(old(db.Lang(uid, cid)))
      && session.langMeme == Some(OtherLang(old(db.Lang(uid, cid))))
    ensures db.userList == old(db.userList) && db.chatList == old(db.chatList)
  {
    var uid := u.uid;
    var cid := ChatScope(u.chat);
    var lang := db.Lang(uid, cid);
    session.lang := Some(lang);
    session.langMeme := Some(OtherLang(lang));
    if db.LockExists(uid, cid) {
      return LockBusy;
    }
    db.SetAction(uid, cid, STARTED);
    return StartMenu;
  }

  /** get_meme: an unregistered identity has its code reset to 0; a
      registered one is busy while a lock exists, otherwise moves to 2. */
  method GetMeme(db: BotDb, session: Session, u: Update) returns (o: Outcome)
    requires db.Valid()
    modifies db, session
    ensures db.Valid()
    ensures var uid, cid := u.uid, ChatScope(u.chat);
      && (!old(db.IsRegistered(uid, cid)) ==> o == NotRegistered && db.locks == old(db.locks)[(uid, cid) := IDLE])
      && (old(db.IsRegistered(uid, cid)) && old(db.LockExists(uid, cid)) ==>
            o == LockBusy && db.locks == old(db.locks))
      && (old(db.IsRegistered(uid, cid)) && !old(db.LockExists(uid, cid)) ==>
            o == ModeMenu && db.locks == old(db.locks)[(uid, cid) := MODE_SELECT])
      && session.lang == Some(old(db.Lang(uid, cid)))
      && session.langMeme == Some(OtherLang(old(db.Lang(uid, cid))))
    ensures db.userList == old(db.userList) && db.chatList == old(db.chatList)
  {
    var uid := u.uid;
    var cid := ChatScope(u.chat);
    var lang := db.Lang(uid, cid);
    session.lang := Some(lang);
    session.langMeme := Some(OtherLang(lang));
    if !db.IsRegistered(uid, cid) {
      db.SetAction(uid, cid, IDLE);
      return NotRegistered;
    }
    if db.LockExists(uid, cid) {
      return LockBusy;
    }
    db.SetAction(uid, cid, MODE_SELECT);
    return ModeMenu;
  }

  /** get_any_meme: the same guards as get_meme; then a meme in the
      identity's language is delivered and the code goes to 0. When the
      fetcher raises, the code is left as it was. */
  method GetAnyMeme(db: BotDb, session: Session, u: Update, w: Engine.World) returns (o: Outcome)
    requires db.Valid()
    modifies db, db.store, session
    ensures db.Valid()
    ensures var uid, cid := u.uid, ChatScope(u.chat);
      && (!old(db.IsRegistered(uid, cid)) ==>
            o == NotRegistered && db.locks == old(db.locks)[(uid, cid) := IDLE]
            && db.store.Snapshot() == old(db.store.Snapshot()) && db.store.nextAssetId == old(db.store.nextAssetId))
      && (old(db.IsRegistered(uid, cid)) && old(db.LockExists(uid, cid)) ==>
            o == LockBusy && db.locks == old(db.locks)
            && db.store.Snapshot() == old(db.store.Snapshot()) && db.store.nextAssetId == old(db.store.nextAssetId))
      && (old(db.IsRegistered(uid, cid)) && !old(db.LockExists(uid, cid)) ==>
            DeliveryStep(old(db.store.Snapshot()), old(db.store.nextAssetId), old(db.locks), db, o,
                         uid, cid, OtherLang(OtherLang(old(db.Lang(uid, cid)))), None, w))
      && session.lang == Some(old(db.Lang(uid, cid)))
      && session.langMeme == Some(OtherLang(old(db.Lang(uid, cid))))
    ensures var uid, cid := u.uid, ChatScope(u.chat);
      var field, val := Engine.FieldOf(EngineUser(uid, cid)), Engine.ValueOf(EngineUser(uid, cid), EngineChat(uid, cid));
      o.Delivered? ==>
        && o.d.url !in Blacklist(old(db.store.Snapshot()), field, val)
        && o.d.url in Blacklist(db.store.Snapshot(), field, val)
        && db.store.usage == old(db.store.usage)
             + [UsageRowFor(o.d.assetId, None, Some(MemeLangArg(OtherLang(OtherLang(old(db.Lang(uid, cid)))))), field, val)]
    ensures db.userList == old(db.userList) && db.chatList == old(db.chatList)
  {
    var uid := u.uid;
    var cid := ChatScope(u.chat);
    var lang := db.Lang(uid, cid);
    session.lang := Some(lang);
    session.langMeme := Some(OtherLang(lang));
    var langMeme := session.langMeme.value;
    if !db.IsRegistered(uid, cid) {
      db.SetAction(uid, cid, IDLE);
      return NotRegistered;
    }
    if db.LockExists(uid, cid) {
      return LockBusy;
    }
    o := Deliver(db, uid, cid, OtherLang(langMeme), None, w);
  }

  /** `ctx.user_data.get("lang", db.lang(uid, cid))`: the session's language,
      else the stored one, which is English for an identity registered nowhere. */
  function SessionLang(db: BotDb, session: Session, uid: int, cid: int): (l: int)
    reads db, session
    ensures session.lang.Some? ==> l == session.lang.value
    ensures session.lang.None? ==> l == db.Lang(uid, cid)
    ensures session.lang.None? && FirstLang(db.userList, uid).None? && (cid == 0 || FirstLang(db.chatList, cid).None?) ==>
      l == LANG_EN
  {
    if session.lang.Some? then session.lang.value else db.Lang(uid, cid)
  }

  /** cb_query's meme language: the session's, else the language other than `lang`. */
  function SessionLangMeme(session: Session, lang: int): (l: int)
    reads session
    ensures session.langMeme.Some? ==> l == session.langMeme.value
    ensures session.langMeme.None? ==> l != lang && (l == LANG_EN || l == LANG_RU)
  {
    if session.langMeme.Some? then session.langMeme.value else OtherLang(lang)
  }

  /** cb_query: every button is refused while no lock exists. Otherwise
      CANCEL deletes the lock whatever its code, REGISTER registers once,
      GET MEME moves a registered identity to 2, and AnyMeme / ByKeyWords
      act only on code 2 (delivering and resetting to 0, or moving to 3). */
  method CbQuery(db: BotDb, session: Session, u: Update, data: Button, w: Engine.World) returns (o: Outcome)
    requires db.Valid()
    modifies db, db.store, session
    ensures db.Valid()
    ensures var uid, cid := u.uid, ChatScope(u.chat);
      !old(db.LockExists(uid, cid)) ==> o == LockBusy && db.locks == old(db.locks)
    ensures var uid, cid := u.uid, ChatScope(u.chat);
      !(old(db.LockExists(uid, cid)) && data == Any) ==>
        db.store.Snapshot() == old(db.store.Snapshot()) && db.store.nextAssetId == old(db.store.nextAssetId)
    ensures var uid, cid := u.uid, ChatScope(u.chat);
      !(old(db.LockExists(uid, cid)) && data == Reg) ==> db.userList == old(db.userList) && db.chatList == old(db.chatList)
    ensures var uid, cid := u.uid, ChatScope(u.chat);
      !(old(db.LockExists(uid, cid)) && data == Lang) ==> session.lang == old(session.lang)
    ensures var uid, cid := u.uid, ChatScope(u.chat);
      !(old(db.LockExists(uid, cid)) && data == LangMeme) ==> session.langMeme == old(session.langMeme)
    ensures var uid, cid := u.uid, ChatScope(u.chat);
      var lang := old(SessionLang(db, session, uid, cid));
      var langMeme := old(SessionLangMeme(session, SessionLang(db, session, uid, cid)));
      old(db.LockExists(uid, cid)) ==>
        && (data == Lang ==>
              && o == LanguageToggled && db.locks == old(db.locks)
              && session.lang == Some(if lang == LANG_EN then LANG_RU else LANG_EN))
        && (data == Cancel ==> o == Cancelled && db.locks == old(db.locks) - {(uid, cid)})
        && (data == Reg ==>
              && db.locks == old(db.locks) && db.IsRegistered(uid, cid)
              && (old(db.IsRegistered(uid, cid)) ==>
                    && o == AlreadyRegistered
                    && db.userList == old(db.userList) && db.chatList == old(db.chatList))
              && (!old(db.IsRegistered(uid, cid)) ==>
                    && o == RegisteredNow && db.Lang(uid, cid) == lang
                    && (cid != 0 ==> db.chatList == old(db.chatList) + [RegRow(cid, lang)] && db.userList == old(db.userList))
                    && (cid == 0 ==> db.userList == old(db.userList) + [RegRow(uid, lang)] && db.chatList == old(db.chatList))))
        && (data == Get ==>
              && (old(db.IsRegistered(uid, cid)) ==> o == ModeMenu && db.locks == old(db.locks)[(uid, cid) := MODE_SELECT])
              && (!old(db.IsRegistered(uid, cid)) ==> o == NotRegistered && db.locks == old(db.locks)))
        && (data == Key ==>
              && (old(db.ActionId(uid, cid)) == Some(MODE_SELECT) ==>
                    o == KeywordPrompt && db.locks == old(db.locks)[(uid, cid) := AWAITING_KEYWORDS])
              && (old(db.ActionId(uid, cid)) != Some(MODE_SELECT) ==> o == Stale && db.locks == old(db.locks)))
        && (data == Any ==>
              && (old(db.ActionId(uid, cid)) != Some(MODE_SELECT) ==>
                    && o == Stale && db.locks == old(db.locks)
                    && db.store.Snapshot() == old(db.store.Snapshot()) && db.store.nextAssetId == old(db.store.nextAssetId))
              && (old(db.ActionId(uid, cid)) == Some(MODE_SELECT) ==>
                    DeliveryStep(old(db.store.Snapshot()), old(db.store.nextAssetId), old(db.locks), db, o,
                                 uid, cid, OtherLang(langMeme), None, w)))
        && (data == LangMeme ==>
              && o == MemeLanguageToggled && db.locks == old(db.locks)
              && session.langMeme == Some(OtherLang(langMeme)))
        && (data.Unknown? ==> o == Ignored && db.locks == old(db.locks))
    ensures var uid, cid := u.uid, ChatScope(u.chat);
      var field, val := Engine.FieldOf(EngineUser(uid, cid)), Engine.ValueOf(EngineUser(uid, cid), EngineChat(uid, cid));
      var langMeme := old(SessionLangMeme(session, SessionLang(db, session, uid, cid)));
      o.Delivered? ==>
        && o.d.url !in Blacklist(old(db.store.Snapshot()), field, val)
        && o.d.url in Blacklist(db.store.Snapshot(), field, val)
        && db.store.usage == old(db.store.usage)
             + [UsageRowFor(o.d.assetId, None, Some(MemeLangArg(OtherLang(langMeme))), field, val)]
  {
    var uid := u.uid;
    var cid := ChatScope(u.chat);
    var lang := SessionLang(db, session, uid, cid);
    var langMeme := SessionLangMeme(session, lang);
    if !db.LockExists(uid, cid) {
      return LockBusy;
    }
    match data {
      case Lang =>
        lang := if lang == LANG_EN then LANG_RU else LANG_EN;
        session.lang := Some(lang);
        return LanguageToggled;
      case Cancel =>
        db.ClearLock(uid, cid);
        return Cancelled;
      case Reg =>
        if db.IsRegistered(uid, cid) {
          return AlreadyRegistered;
        }
        db.Register(uid, cid, lang);
        return RegisteredNow;
      case Get =>
        if db.IsRegistered(uid, cid) {
          db.SetAction(uid, cid, MODE_SELECT);
          return ModeMenu;
        }
        return NotRegistered;
      case Any =>
        if db.ActionId(uid, cid) != Some(MODE_SELECT) {
          return Stale;
        }
        o := Deliver(db, uid, cid, OtherLang(langMeme), None, w);
      case Key =>
        if db.ActionId(uid, cid) != Some(MODE_SELECT) {
          return Stale;
        }
        db.SetAction(uid, cid, AWAITING_KEYWORDS);
        return KeywordPrompt;
      case LangMeme =>
        session.langMeme := Some(OtherLang(langMeme));
        return MemeLanguageToggled;
      case Unknown(_) =>
        return Ignored;
    }
  }

  /** txt_handler's meme language: the other of the session's meme language,
      else the session or stored language itself. */
  function TextLangMeme(db: BotDb, session: Session, uid: int, cid: int): (l: int)
    reads db, session
    ensures session.langMeme.Some? ==> l == OtherLang(session.langMeme.value)
    ensures session.langMeme.None? ==> l == SessionLang(db, session, uid, cid)
  {
    if session.langMeme.Some? then OtherLang(session.langMeme.value) else SessionLang(db, session, uid, cid)
  }

  /** Keywords are searched in the language AnyMeme would fetch in: the
      "eng"/"rus" argument txt_handler passes equals cb_query's for AnyMeme,
      whatever the session holds. */
  lemma KeywordAndAnyMemeSameLanguage(db: BotDb, session: Session, uid: int, cid: int)
    ensures MemeLangArg(TextLangMeme(db, session, uid, cid))
         == MemeLangArg(OtherLang(SessionLangMeme(session, SessionLang(db, session, uid, cid))))
  {
  }

  /** txt_handler: ignored unless the code is exactly 3; then the stripped
      text is the search keywords and the code goes to 0 after delivery. */
  method TxtHandler(db: BotDb, session: Session, u: Update, text: string, w: Engine.World) returns (o: Outcome)
    requires db.Valid()
    modifies db, db.store
    ensures db.Valid()
    ensures db.userList == old(db.userList) && db.chatList == old(db.chatList)
    ensures var uid, cid := u.uid, ChatScope(u.chat);
      && (old(db.ActionId(uid, cid)) != Some(AWAITING_KEYWORDS) ==>
            && o == Ignored && db.locks == old(db.locks)
            && db.store.Snapshot() == old(db.store.Snapshot()) && db.store.nextAssetId == old(db.store.nextAssetId))
      && (old(db.ActionId(uid, cid)) == Some(AWAITING_KEYWORDS) ==>
            DeliveryStep(old(db.store.Snapshot()), old(db.store.nextAssetId), old(db.locks), db, o,
                         uid, cid, old(TextLangMeme(db, session, uid, cid)), Some(Strip(text)), w))
    ensures var uid, cid := u.uid, ChatScope(u.chat);
      var field, val := Engine.FieldOf(EngineUser(uid, cid)), Engine.ValueOf(EngineUser(uid, cid), EngineChat(uid, cid));
      o.Delivered? ==>
        && o.d.url !in Blacklist(old(db.store.Snapshot()), field, val)
        && o.d.url in Blacklist(db.store.Snapshot(), field, val)
        && db.store.usage == old(db.store.usage)
             + [UsageRowFor(o.d.assetId, Some(Strip(text)), Some(MemeLangArg(old(TextLangMeme(db, session, uid, cid)))), field, val)]
  {
    var uid := u.uid;
    var cid := ChatScope(u.chat);
    if db.ActionId(uid, cid) != Some(AWAITING_KEYWORDS) {
      return Ignored;
    }
    var lang := SessionLang(db, session, uid, cid);
    var langMeme := if session.langMeme.Some? then OtherLang(session.langMeme.value) else lang;
    var kw := Strip(text);
    o := Deliver(db, uid, cid, langMeme, Some(kw), w);
  }
}

=== FILE: providers.dfy ===
/** The provider side of the fetcher that is logic rather than transport:
    the Cyrillic test and the loops that turn each provider's answer into
    candidates. The requests and the JSON decoding are not modelled: each
    provider's answer arrives already decoded, or as None when the request
    failed. */
module Providers {
  import opened Common

  const ENG_SUBS: seq<string> := ["memes", "dankmemes", "me_irl"]
  const RUS_SUBS: seq<string> := ["ru_memes", "RussianMemes", "pikabu"]

  /** A meme offered by some provider. */
  datatype Candidate = Candidate(url: string, title: string, source: string)

  /** The fields of one Reddit search hit that the filter looks at. */
  datatype Post = Post(postHint: Option<string>, title: string, subreddit: string, url: string)

  /** The character class [а-яА-ЯёЁ]. */
  predicate IsCyrillicChar(c: char) {
    ('\U{0430}' <= c <= '\U{044F}') || ('\U{0410}' <= c <= '\U{042F}')
    || c == '\U{0451}' || c == '\U{0401}'
  }

  /** is_cyrillic: the title contains at least one Cyrillic letter. */
  function IsCyrillic(txt: string): (b: bool)
    ensures b <==> exists i :: 0 <= i < |txt| && IsCyrillicChar(txt[i])
  {
    if txt == [] then false
    else if IsCyrillicChar(txt[0]) then true
    else
      var rest := IsCyrillic(txt[1..]);
      assert forall i :: 1 <= i < |txt| ==> txt[i] == txt[1..][i - 1];
      rest
  }

  /** Whether reddit_search keeps a post for the language `lang`. */
  predicate Keep(p: Post, lang: string) {
    && p.postHint == Some("image")
    && !(lang == "rus" && !(IsCyrillic(p.title) || p.subreddit in RUS_SUBS))
    && !(lang == "eng" && IsCyrillic(p.title))
  }

  function FromPost(p: Post): Candidate {
    Candidate(p.url, p.title, "r/" + p.subreddit)
  }

  /** The items of a provider's answer; a failed request counts as none. */
  function PostsOrNone<T>(response: Option<seq<T>>): seq<T> {
    if response.Some? then response.value else []
  }

  /** What reddit_search returns for the posts of a response, in their order. */
  function RedditFilter(posts: seq<Post>, lang: string): (out: seq<Candidate>)
    ensures |out| <= |posts|
    ensures forall c :: c in out ==> exists p :: p in posts && Keep(p, lang) && c == FromPost(p)
    ensures forall p :: p in posts && Keep(p, lang) ==> FromPost(p) in out
  {
    if posts == [] then []
    else
      var init := posts[..|posts| - 1];
      var last := posts[|posts| - 1];
      assert posts == init + [last];
      RedditFilter(init, lang) + (if Keep(last, lang) then [FromPost(last)] else [])
  }

  /** The language rules of the filter, stated on its output alone: an
      English search never yields a Cyrillic title, a Russian one yields
      only Cyrillic titles or posts from the Russian subreddits, and every
      output comes from an image post. */
  lemma FilterLanguageRules(posts: seq<Post>, lang: string, c: Candidate)
    requires c in RedditFilter(posts, lang)
    ensures exists p :: p in posts && p.postHint == Some("image") && c == FromPost(p)
    ensures lang == "eng" ==> !IsCyrillic(c.title)
    ensures lang == "rus" ==> IsCyrillic(c.title) || exists s :: s in RUS_SUBS && c.source == "r/" + s
  {
    var p :| p in posts && Keep(p, lang) && c == FromPost(p);
    if lang == "rus" && !IsCyrillic(c.title) {
      assert p.subreddit in RUS_SUBS && c.source == "r/" + p.subreddit;
    }
  }

  /** reddit_search: one request for `q` (the subreddit list `subs` takes
      no part in it), then the post filter, built up in a loop. */
  method RedditSearch(fetch: string -> Option<seq<Post>>, q: string, subs: seq<string>, lang: string)
    returns (out: seq<Candidate>)
    ensures out == RedditFilter(PostsOrNone(fetch(q)), lang)
    ensures fetch(q).None? ==> out == []
  {
    var response := fetch(q);
    if response.None? {
      return [];
    }
    var posts := response.value;
    out := [];
    var i := 0;
    while i < |posts|
      invariant 0 <= i <= |posts|
      invariant out == RedditFilter(posts[..i], lang)
    {
      var p := posts[i];
      assert posts[..i + 1][..i] == posts[..i];
      if p.postHint != Some("image") {
        i := i + 1;
        continue;
      }
      var title := p.title;
      if lang == "rus" && !(IsCyrillic(title) || p.subreddit in RUS_SUBS) {
        i := i + 1;
        continue;
      }
      if lang == "eng" && IsCyrillic(title) {
        i := i + 1;
        continue;
      }
      out := out + [Candidate(p.url, title, "r/" + p.subreddit)];
      i := i + 1;
    }
    assert posts[..|posts|] == posts;
  }

  /** The fields giphy_ru_search reads from one GIF. */
  datatype Gif = Gif(id: string, url: string, title: string)

  function FromGif(q: string, g: Gif): Candidate {
    Candidate(g.url, if g.title != "" then g.title else q, "giphy/" + g.id)
  }

  /** What giphy_ru_search returns for the GIFs of a response. */
  function GiphyCandidates(q: string, gifs: seq<Gif>): (out: seq<Candidate>)
    ensures |out| == |gifs|
    ensures forall i :: 0 <= i < |gifs| ==> out[i] == FromGif(q, gifs[i])
    ensures q != "" ==> forall c :: c in out ==> c.title != ""
  {
    if gifs == [] then []
    else
      var init := GiphyCandidates(q, gifs[..|gifs| - 1]);
      init + [FromGif(q, gifs[|gifs| - 1])]
  }

  /** How the Giphy search call ends: with GIFs; with nothing (no API key
      configured, or an ApiException, both caught); or with any other error,
      which giphy_ru_search does not catch. */
  datatype GiphyAnswer = GiphyGifs(gifs: seq<Gif>) | GiphyUnavailable | GiphyRaised

  /** giphy_ru_search: no API key or an ApiException gives no GIFs; any
      other error escapes; otherwise every GIF becomes a candidate, titled
      by the query when it has no title of its own. */
  method GiphyRuSearch(fetch: string -> GiphyAnswer, q: string) returns (out: Result<seq<Candidate>, Error>)
    ensures out.Err? <==> fetch(q).GiphyRaised?
    ensures out.Err? ==> out.error == GiphyFailed
    ensures fetch(q).GiphyUnavailable? ==> out == Ok([])
    ensures fetch(q).GiphyGifs? ==> out == Ok(GiphyCandidates(q, fetch(q).gifs))
  {
    var rsp := fetch(q);
    if rsp.GiphyRaised? {
      return Err(GiphyFailed);
    }
    if rsp.GiphyUnavailable? {
      return Ok([]);
    }
    var gifs := rsp.gifs;
    var cands := [];
    var i := 0;
    while i < |gifs|
      invariant 0 <= i <= |gifs|
      invariant cands == GiphyCandidates(q, gifs[..i])
    {
      assert gifs[..i + 1][..i] == gifs[..i];
      var g := gifs[i];
      cands := cands + [Candidate(g.url, if g.title != "" then g.title else q, "giphy/" + g.id)];
      i := i + 1;
    }
    assert gifs[..|gifs|] == gifs;
    return Ok(cands);
  }

  /** The fields pikabu_ru reads from one post ("" when the preview is missing). */
  datatype PikabuPost = PikabuPost(preview: string, title: string, storyId: string)

  function FromPikabu(p: PikabuPost): Candidate {
    Candidate(p.preview, p.title, "pikabu/" + p.storyId)
  }

  /** What pikabu_ru returns for the posts of a response: every post with a preview. */
  function PikabuCandidates(posts: seq<PikabuPost>): (out: seq<Candidate>)
    ensures |out| <= |posts|
    ensures forall c :: c in out ==> c.url != "" && exists p :: p in posts && c == FromPikabu(p)
    ensures forall p :: p in posts && p.preview != "" ==> FromPikabu(p) in out
  {
    if posts == [] then []
    else
      var init := posts[..|posts| - 1];
      var last := posts[|posts| - 1];
      assert posts == init + [last];
      PikabuCandidates(init) + (if last.preview != "" then [FromPikabu(last)] else [])
  }

  /** pikabu_ru: a tag search when the tag is truthy, a random post list
      otherwise (both are `fetch`'s business); a failed request gives []. */
  method PikabuRu(fetch: Option<string> -> Option<seq<PikabuPost>>, tag: Option<string>) returns (out: seq<Candidate>)
    ensures out == PikabuCandidates(PostsOrNone(fetch(tag)))
  {
    var js := fetch(tag);
    if js.None? {
      return [];
    }
    var posts := js.value;
    out := [];
    var i := 0;
    while i < |posts|
      invariant 0 <= i <= |posts|
      invariant out == PikabuCandidates(posts[..i])
    {
      assert posts[..i + 1][..i] == posts[..i];
      var p := posts[i];
      if p.preview != "" {
        out := out + [Candidate(p.preview, p.title, "pikabu/" + p.storyId)];
      }
      i := i + 1;
    }
    assert posts[..|posts|] == posts;
  }
}

=== FILE: store.dfy ===
/** The three append-only tables the fetcher keeps in its database, the
    read-only queries over them, and the connection object that appends rows. */
module Store {
  import opened Common

  /** A row of memes_all_urls. */
  datatype Asset = Asset(id: nat, url: string, name: string, source: string, dateUpload: int)

  /** The identity column a row is keyed by. */
  datatype Column = UserIdColumn | ChatIdColumn

  /** A row of memes_queries_journal: one delivery. */
  datatype JournalRow = JournalRow(userId: Option<int>, chatId: Option<int>, urlId: nat)

  /** A row of memes_key_words_using. */
  datatype UsageRow = UsageRow(urlId: nat, keywords: Option<string>, language: Option<string>,
                               userId: Option<int>, chatId: Option<int>)

  datatype Tables = Tables(assets: seq<Asset>, journal: seq<JournalRow>, usage: seq<UsageRow>)

  /** _identity_clause: only the exact field name "USER_ID" selects the user column. */
  function IdentityClause(field: string): Column {
    if field == "USER_ID" then UserIdColumn else ChatIdColumn
  }

  /** SQL `=` on nullable integers: a comparison with NULL is never true. */
  predicate SqlEq(a: Option<int>, b: Option<int>) {
    a.Some? && b.Some? && a.value == b.value
  }

  function JournalValue(q: JournalRow, col: Column): Option<int> {
    if col == UserIdColumn then q.userId else q.chatId
  }

  /** The journal has a delivery of asset `id` to the identity (col, val). */
  predicate Journaled(journal: seq<JournalRow>, id: nat, col: Column, val: Option<int>) {
    exists q :: q in journal && q.urlId == id && SqlEq(JournalValue(q, col), val)
  }

  predicate HasAsset(assets: seq<Asset>, id: nat) {
    exists a :: a in assets && a.id == id
  }

  predicate UrlsUnique(assets: seq<Asset>) {
    forall i, j :: 0 <= i < j < |assets| ==> assets[i].url != assets[j].url
  }

  /** Every asset ID is below `next`, the next value of the ID sequence. */
  predicate IdsBelow(assets: seq<Asset>, next: nat) {
    forall a :: a in assets ==> a.id < next
  }

  predicate IdsUnique(assets: seq<Asset>) {
    forall i, j :: 0 <= i < j < |assets| ==> assets[i].id != assets[j].id
  }

  /** What the fetcher keeps true of its tables: one asset per url and per
      id, and every journal and keyword row names an existing asset. */
  predicate Consistent(t: Tables) {
    && UrlsUnique(t.assets)
    && IdsUnique(t.assets)
    && (forall q :: q in t.journal ==> HasAsset(t.assets, q.urlId))
    && (forall k :: k in t.usage ==> HasAsset(t.assets, k.urlId))
  }

  /** blacklist: the urls of the assets joined to a journal row of the identity. */
  function Blacklist(t: Tables, field: string, val: Option<int>): (r: set<string>)
    ensures val.None? ==> r == {}
    ensures r <= set a | a in t.assets :: a.url
  {
    var r := set a | a in t.assets && Journaled(t.journal, a.id, IdentityClause(field), val) :: a.url;
    assert val.None? ==> forall a :: a in t.assets ==> !Journaled(t.journal, a.id, IdentityClause(field), val);
    r
  }

  /** The row add_journal writes: the value goes in the identity's column,
      the other column stays NULL. */
  function JournalRowFor(urlId: nat, field: string, val: Option<int>): JournalRow {
    if IdentityClause(field) == UserIdColumn then JournalRow(val, None, urlId)
    else JournalRow(None, val, urlId)
  }

  /** The row add_keyword_usage writes; an empty keyword string is stored as NULL. */
  function UsageRowFor(urlId: nat, key: Option<string>, lang: Option<string>,
                       field: string, val: Option<int>): UsageRow {
    var kw := if key == Some("") then None else key;
    if IdentityClause(field) == UserIdColumn then UsageRow(urlId, kw, lang, val, None)
    else UsageRow(urlId, kw, lang, None, val)
  }

  /** The EXISTS sub-query of find_cached_url: a keyword row of asset `id`
      with the given keywords and language (each only when given). It does
      not look at the identity columns. */
  predicate KeywordMatch(k: UsageRow, id: nat, key: Option<string>, lang: Option<string>) {
    && k.urlId == id
    && (Truthy(key) ==> k.keywords == key)
    && (Truthy(lang) ==> k.language == lang)
  }

  /** The WHERE clause of find_cached_url for one asset. */
  predicate Qualifies(t: Tables, a: Asset, key: Option<string>, lang: Option<string>,
                      col: Column, val: Option<int>) {
    && !Journaled(t.journal, a.id, col, val)
    && ((Truthy(key) || Truthy(lang)) ==> exists k :: k in t.usage && KeywordMatch(k, a.id, key, lang))
  }

  /** ORDER BY date_upload DESC LIMIT 1 over the qualifying assets of `assets`
      (on equal dates the later row is kept). */
  function NewestQualifying(t: Tables, assets: seq<Asset>, key: Option<string>, lang: Option<string>,
                            col: Column, val: Option<int>): (r: Option<Asset>)
    ensures r.Some? ==> r.value in assets && Qualifies(t, r.value, key, lang, col, val)
    ensures forall a :: a in assets && Qualifies(t, a, key, lang, col, val) ==>
      r.Some? && a.dateUpload <= r.value.dateUpload
  {
    if assets == [] then None
    else
      var init := assets[..|assets| - 1];
      var last := assets[|assets| - 1];
      assert assets == init + [last];
      var best := NewestQualifying(t, init, key, lang, col, val);
      if !Qualifies(t, last, key, lang, col, val) then best
      else if best.Some? && best.value.dateUpload > last.dateUpload then best
      else Some(last)
  }

  /** find_cached_url: the newest asset never delivered to the identity
      that, when keywords or a language are given, has a matching keyword row. */
  function FindCachedUrl(t: Tables, key: Option<string>, lang: Option<string>,
                         field: string, val: Option<int>): (r: Option<Asset>)
    ensures r.Some? ==> r.value in t.assets && !Journaled(t.journal, r.value.id, IdentityClause(field), val)
    ensures r.Some? && (Truthy(key) || Truthy(lang)) ==>
      exists k :: k in t.usage && KeywordMatch(k, r.value.id, key, lang)
    ensures r.None? <==> forall a :: a in t.assets ==> !Qualifies(t, a, key, lang, IdentityClause(field), val)
    ensures r.Some? ==> forall a :: a in t.assets && Qualifies(t, a, key, lang, IdentityClause(field), val) ==>
      a.dateUpload <= r.value.dateUpload
  {
    NewestQualifying(t, t.assets, key, lang, IdentityClause(field), val)
  }

  /** get_url_id: the ID of the (first) asset with this url. */
  function GetUrlId(assets: seq<Asset>, url: string): (r: Option<nat>)
    ensures r.None? <==> forall a :: a in assets ==> a.url != url
    ensures r.Some? ==> exists a :: a in assets && a.url == url && a.id == r.value
  {
    if assets == [] then None
    else if assets[0].url == url then Some(assets[0].id)
    else
      var rest := GetUrlId(assets[1..], url);
      assert forall a :: a in assets ==> a == assets[0] || a in assets[1..];
      rest
  }

  /** With one asset per url, an existing url resolves to its own asset's ID. */
  lemma {:induction false} GetUrlIdOfExisting(assets: seq<Asset>, a: Asset)
    requires UrlsUnique(assets) && a in assets
    ensures GetUrlId(assets, a.url) == Some(a.id)
  {
    if assets[0] != a {
      assert a in assets[1..];
      assert assets[0].url != a.url by {
        var j :| 0 <= j < |assets| && assets[j] == a;
        assert j != 0;
      }
      assert UrlsUnique(assets[1..]) by {
        forall i, j | 0 <= i < j < |assets| - 1 ensures assets[1..][i].url != assets[1..][j].url {
          assert assets[1..][i] == assets[i + 1] && assets[1..][j] == assets[j + 1];
        }
      }
      GetUrlIdOfExisting(assets[1..], a);
    }
  }

  /** get_url_id as written: the row holds only the column "ID", so reading
      the attribute `id` of a row that was found fails; only a miss returns. */
  function GetUrlIdAsWritten(assets: seq<Asset>, url: string): (r: Result<Option<nat>, Error>)
    ensures r.Err? <==> exists a :: a in assets && a.url == url
    ensures r.Err? ==> r.error == UrlLookupFailed
    ensures r.Ok? ==> r.value.None?
  {
    if GetUrlId(assets, url).Some? then Err(UrlLookupFailed) else Ok(None)
  }

  /** As written, the lookup of a url already in the table fails instead of
      returning its ID, so main cannot reuse the existing row. */
  lemma AsWrittenLookupFailsOnKnownUrl(assets: seq<Asset>, a: Asset)
    requires UrlsUnique(assets) && a in assets
    ensures GetUrlIdAsWritten(assets, a.url) == Err(UrlLookupFailed)
    ensures GetUrlId(assets, a.url) == Some(a.id)
  {
    GetUrlIdOfExisting(assets, a);
  }

  /** An asset not yet delivered to the identity is not in its blacklist,
      provided no other asset shares its url. */
  lemma NotJournaledNotBlacklisted(t: Tables, a: Asset, field: string, val: Option<int>)
    requires UrlsUnique(t.assets) && a in t.assets
    requires !Journaled(t.journal, a.id, IdentityClause(field), val)
    ensures a.url !in Blacklist(t, field, val)
  {
  }

  /** Rows are only ever added, so a blacklist never loses a url. */
  lemma BlacklistGrows(t: Tables, t': Tables, field: string, val: Option<int>)
    requires forall a :: a in t.assets ==> a in t'.assets
    requires forall q :: q in t.journal ==> q in t'.journal
    ensures Blacklist(t, field, val) <= Blacklist(t', field, val)
  {
    forall u | u in Blacklist(t, field, val) ensures u in Blacklist(t', field, val) {
      var b :| b in t.assets && Journaled(t.journal, b.id, IdentityClause(field), val) && b.url == u;
      var p :| p in t.journal && p.urlId == b.id && SqlEq(JournalValue(p, IdentityClause(field)), val);
      assert p in t'.journal;
      assert Journaled(t'.journal, b.id, IdentityClause(field), val);
    }
  }

  /** The row add_journal writes is found again by the same identity's
      queries exactly when the identity is not NULL. */
  lemma JournalRowFoundAgain(journal: seq<JournalRow>, urlId: nat, field: string, val: Option<int>)
    ensures Journaled(journal + [JournalRowFor(urlId, field, val)], urlId, IdentityClause(field), val)
        <==> val.Some? || Journaled(journal, urlId, IdentityClause(field), val)
  {
    var row := JournalRowFor(urlId, field, val);
    assert JournalValue(row, IdentityClause(field)) == val;
    if Journaled(journal, urlId, IdentityClause(field), val) {
      var q :| q in journal && q.urlId == urlId && SqlEq(JournalValue(q, IdentityClause(field)), val);
      assert q in journal + [row];
    }
    if val.Some? {
      assert row in journal + [row];
    }
  }

  /** A journal row of a (non-NULL) identity puts the asset's url in its blacklist. */
  lemma JournaledIsBlacklisted(t: Tables, a: Asset, field: string, val: Option<int>)
    requires a in t.assets && val.Some? && JournalRowFor(a.id, field, val) in t.journal
    ensures a.url in Blacklist(t, field, val)
  {
    var q := JournalRowFor(a.id, field, val);
    assert q.urlId == a.id && SqlEq(JournalValue(q, IdentityClause(field)), val);
    assert Journaled(t.journal, a.id, IdentityClause(field), val);
  }

  /** The keyword row add_keyword_usage writes matches the same keywords and
      language in find_cached_url's sub-query, so a later request with them
      can find the asset again; an empty keyword string is stored as NULL. */
  lemma KeywordRowFoundAgain(urlId: nat, key: Option<string>, lang: Option<string>, field: string, val: Option<int>)
    ensures KeywordMatch(UsageRowFor(urlId, key, lang, field, val), urlId, key, lang)
    ensures UsageRowFor(urlId, key, lang, field, val).keywords.Some? ==> Truthy(key)
  {
  }

  /** The connection to the meme tables: add_journal, add_keyword_usage and
      insert_url append rows, each committed at once. */
  class Db {
    var assets: seq<Asset>
    var journal: seq<JournalRow>
    var usage: seq<UsageRow>
    var nextAssetId: nat   // the next value of the asset ID sequence

    function Snapshot(): Tables
      reads this
    {
      Tables(assets, journal, usage)
    }

    ghost predicate Valid()
      reads this
    {
      IdsBelow(assets, nextAssetId)
    }

    constructor ()
      ensures Valid() && assets == [] && journal == [] && usage == []
    {
      assets, journal, usage := [], [], [];
      nextAssetId := 1;
    }

    /** insert_url: the new row gets the next ID and the current time. */
    method InsertUrl(url: string, title: string, source: string, now: int) returns (id: nat)
      requires Valid()
      modifies this
      ensures Valid()
      ensures id == old(nextAssetId) && id !in set a | a in old(assets) :: a.id
      ensures nextAssetId == old(nextAssetId) + 1
      ensures assets == old(assets) + [Asset(id, url, title, source, now)]
      ensures journal == old(journal) && usage == old(usage)
    {
      id := nextAssetId;
      assets := assets + [Asset(id, url, title, source, now)];
      nextAssetId := nextAssetId + 1;
    }

    /** add_journal */
    method AddJournal(urlId: nat, field: string, val: Option<int>)
      modifies this
      ensures journal == old(journal) + [JournalRowFor(urlId, field, val)]
      ensures assets == old(assets) && usage == old(usage) && nextAssetId == old(nextAssetId)
    {
      var clause := IdentityClause(field);
      var row := if clause == UserIdColumn then JournalRow(val, None, urlId) else JournalRow(None, val, urlId);
      journal := journal + [row];
    }

    /** add_keyword_usage */
    method AddKeywordUsage(urlId: nat, key: Option<string>, lang: Option<string>, field: string, val: Option<int>)
      modifies this
      ensures usage == old(usage) + [UsageRowFor(urlId, key, lang, field, val)]
      ensures assets == old(assets) && journal == old(journal) && nextAssetId == old(nextAssetId)
    {
      var k := key;
      if k == Some("") {
        k := None;
      }
      var clause := IdentityClause(field);
      var row := if clause == UserIdColumn then UsageRow(urlId, k, lang, val, None)
                 else UsageRow(urlId, k, lang, None, val);
      usage := usage + [row];
    }
  }
}
